=== FILE: README.md ===
# A verified model of a MapReduce word count

This project models the core of a small MapReduce framework written in Go,
together with the word-count job that runs on it. There are three parts.

- **The coordinator's scheduler** (`internal/coordinator.go`) has two task tables:
  - map tasks, keyed by input file;
  - reduce tasks, keyed by the decimal partition number.

  Each task has a number, a start time and a status (unstarted, in progress or completed). The coordinator also keeps a counter of remaining tasks per phase. It hands out tasks, the map phase before the reduce phase. It marks reported tasks completed, and it puts in-progress tasks older than 10 seconds back to unstarted.
- **The worker's data path** (`internal/worker.go`). A map task runs the map function on one input file. It sends each record to the partition `ihash(key) % nReduce`, where `ihash` is 32-bit FNV-1a masked to 31 bits. It writes one file `mr-<map>-<partition>` per partition that some record was sent to, one JSON record per line. A reduce task then:
  - selects the intermediate files of its partition;
  - decodes them and sorts the records by key;
  - writes one line `<key> <result>` per distinct key to `mr-out-<partition>`.
- **The word-count job** (`apps/wordcount.go`). `Map` emits `(word, "1")` for every maximal run of letters. `Reduce` answers the number of values, in decimal.

The Dafny modules follow that structure:

- `Decimal` is `strconv.Itoa` and `%d`, with a parser that reads the result back.
- `Rpc` holds the message records.
- `Coordinator` has two layers:
  - the state as a value `Snapshot`, with one pure function per operation;
  - a class `Coordinator` whose fields are updated in place, whose methods are proved to perform exactly those transitions.
- `Hash` covers UTF-8, FNV-1a, `ihash` and Go's truncating `%`.
- `Text` covers `strings.Split`, the line format and Go's string order.
- `KeyValues` covers records, the sort and grouping by key.
- `Worker` covers bucketing, file names, the file selection of a reduce task, reading, and the output loop.
- `WordCount` is the job itself.

What the model does about the outside world:

- The file system is a map from path to contents.
- The JSON codec is a pair of functions `enc`/`dec`. The predicate `LineCodec` requires them to round-trip and to produce no newline.
- `unicode.IsLetter` is a parameter `isLetter`.
- The directory walk is the sequence of paths it visits.
- The test a reduce task applies to each walked path is a parameter `sel`. `Worker.MatchesAsWritten` is the source's pattern; `Worker.IsIntermediateFor` is the intended one.
- The current time is an integer number of seconds `now`.
- A `log.Fatal` exit, and Go's panic on `% 0`, are a `None` result.

Findings lists two places where the code does not do what its callers evidently expect. For both, the model has the code as written and a corrected version. The reduce task calls `sort.Sort`, which is not stable. The results about the reduce output therefore hold for any sorted permutation of its input, and the values of one key are stated only up to their order.

## Model

| member | source | states |
|---|---|---|
| Coordinator.Start | internal/coordinator.go:38-44 | handing out an unstarted task marks it in progress since `now` and keeps its number; every other task is unchanged; the set of pending tasks is unchanged; no completed task is reopened |
| Coordinator.Complete | internal/coordinator.go:108-113 | the named task becomes completed with its number kept; every other task is unchanged; the pending set loses exactly that name |
| Coordinator.Rescan | internal/coordinator.go:121-149 | after a scan a task is unstarted iff it was unstarted or had been in progress for more than 10 seconds; it is in progress iff it had been in progress for at most 10 seconds; names, numbers, start times and the pending set are unchanged |
| Coordinator.SelectUnstarted | internal/coordinator.go:38-47 | the scan returns some unstarted task, started at `now`, with its number, when one exists; otherwise it returns ("", 0) and the table is unchanged |
| Coordinator.RescanTable | internal/coordinator.go:122-134 | the loop over the table performs exactly the timeout scan `Rescan` |
| Coordinator.Coordinator.TakeMapTask | internal/coordinator.go:38-48 | `getMTask`: either an unstarted map task is started and returned with its number, or the result is ("", 0), no map task was unstarted, and nothing changed |
| Coordinator.Coordinator.TakeReduceTask | internal/coordinator.go:50-60 | `getRTask`: the same for reduce tasks |
| Coordinator.GetTaskStep | internal/coordinator.go:62-103 | while map tasks remain, only a map task is handed out, or the caller waits; "no more tasks" iff both counters are 0; the task handed out was unstarted and is now in progress since `now`, and the other table is untouched; a reduce reply carries `nReduce` 0; the counters and pending sets do not change; completed tasks stay completed |
| Coordinator.Coordinator.GetTask | internal/coordinator.go:62-103 | one atomic `GetTask` performs `GetTaskStep` for some task choice that Go's map order allows |
| Coordinator.ReduceOnlyAfterMapPhase | internal/coordinator.go:65-96 | while the counters match, a reduce task is handed out only when every map task is completed |
| Coordinator.Report | internal/coordinator.go:105-116 | as written: the task becomes completed and its counter drops by exactly 1, whatever its prior status; the other table and counter are untouched |
| Coordinator.Coordinator.UpdateTaskStatus | internal/coordinator.go:105-116 | the method performs `Report` on the object's fields |
| Coordinator.FirstReportKeepsCounters | internal/coordinator.go:105-116 | the first report for a task keeps each counter equal to the number of its non-completed tasks |
| Coordinator.DuplicateReportBreaksCounters | internal/coordinator.go:105-116 | a report for an already completed task leaves its counter one below the number of pending tasks |
| Coordinator.LateReportUndoesDone | internal/coordinator.go:112-113 | a concrete finished job that a late reduce report turns back into an unfinished one |
| Coordinator.EarlyReducePhase | internal/coordinator.go:62-116 | as written: a duplicate map report brings `mRemaining` to 0 while another map task is still in progress, and the next request hands out a reduce task |
| Coordinator.EarlyDone | internal/coordinator.go:105-180 | as written: a duplicate reduce report makes `Done` true while another reduce task is still in progress |
| Coordinator.LateMapReportStalls | internal/coordinator.go:62-157 | as written: a late map report in the reduce phase drives `mRemaining` to -1; then every request waits and the rescheduler never puts the expired reduce task back; the guarded report ignores that report |
| Coordinator.ReportOnce | internal/coordinator.go:105-116 | corrected report: it ignores a task that is already completed, and otherwise is `Report` |
| Coordinator.Coordinator.CompleteTaskOnce | internal/coordinator.go:105-116 | the method performs `ReportOnce` on the object's fields |
| Coordinator.ReportOnceKeepsCounters | internal/coordinator.go:105-116 | with the guard, a report keeps the counters matching, never undoes `Done`, and lowers its counter by at most 1 |
| Coordinator.ReschedulePass | internal/coordinator.go:118-157 | while map tasks remain only map tasks are rescanned; then only reduce tasks are; the loop stops iff both counters are 0; the counters, the pending sets and the completed tasks are unchanged |
| Coordinator.Coordinator.RescheduleStep | internal/coordinator.go:118-157 | one iteration of the rescheduler loop performs `ReschedulePass` |
| Coordinator.PendingEmpty | internal/coordinator.go:172-180 | a table has no pending task iff every task in it is completed |
| Coordinator.Coordinator.Done | internal/coordinator.go:172-180 | `Done` is true iff `rRemaining` is 0; while the counters match, that is iff every reduce task is completed |
| Coordinator.InitialMapTasks | internal/coordinator.go:183-189 | the map tasks are named by the input files, all unstarted; each is numbered by the last position its name occurs at |
| Coordinator.BuildMapTasks | internal/coordinator.go:183-189 | the first loop of `MakeCoordinator` builds exactly `InitialMapTasks` |
| Coordinator.DistinctFilesNumbered | internal/coordinator.go:184-189 | with distinct file names, map task i is the one named by the i-th file |
| Coordinator.InitialReduceTasks | internal/coordinator.go:190-196 | there are max(nReduce, 0) reduce tasks, all unstarted; each is named by the decimal form of its number, which lies in [0, nReduce) |
| Coordinator.BuildReduceTasks | internal/coordinator.go:190-196 | the second loop of `MakeCoordinator` builds exactly `InitialReduceTasks`, including when nReduce <= 0 |
| Coordinator.ReduceTaskNumbered | internal/coordinator.go:191-196 | reduce task i is named by the decimal form of i, is unstarted and has number i |
| Coordinator.Initial | internal/coordinator.go:199-206 | the counters start at len(files) and nReduce, and every task starts unstarted |
| Coordinator.Coordinator.constructor | internal/coordinator.go:182-206 | the fields hold `Initial(files, nReduce)` |
| Coordinator.DistinctCard | internal/coordinator.go:184-189 | a list has at most as many distinct names as entries, and exactly as many iff it has no repeats |
| Coordinator.NextKeepsMapSurplus | internal/coordinator.go:62-157 | every event keeps `mRemaining` minus the number of pending map tasks, so a repeated input name leaves the map counter too high for the whole run |
| Coordinator.InitialCountersMatch | internal/coordinator.go:182-206 | the initial counters match the pending tasks iff the file names are distinct and nReduce >= 0 |
| Coordinator.Allowed | internal/coordinator.go:62-157 | which events can happen in a state: a task request with a choice Go's map order allows, a report for a task in the table, or a rescheduler pass |
| Coordinator.Next | internal/coordinator.go:62-157 | the state after an `Event`: a task request performs `GetTaskStep`, a report performs the guarded `ReportOnce`, a tick performs `ReschedulePass` |
| Coordinator.NextKeepsInvariant | internal/coordinator.go:62-157 | a task request, a guarded report or a rescheduler pass keeps the counters matching; it never undoes `Done`, never reopens a completed task and never raises a counter |
| Coordinator.RunKeepsInvariant | internal/coordinator.go:62-157 | with the guarded report `ReportOnce`, every state of a run that starts with matching counters has matching counters |
| Coordinator.RunStaysDone | internal/coordinator.go:172-180 | with the guarded report `ReportOnce`, in such a run, once `Done` holds it holds in every later state |
| Coordinator.RunKeepsCounters | internal/coordinator.go:182-206 | with the guarded report `ReportOnce`, a run from `MakeCoordinator` with distinct files and nReduce >= 0 keeps the counters matching |
| Coordinator.InitialReduceCounterOk | internal/coordinator.go:190-206 | for any files and any nReduce, `rRemaining` starts equal to the number of unfinished reduce tasks, or negative with none to do |
| Coordinator.NextKeepsReduceCounter | internal/coordinator.go:62-157 | with the guarded report `ReportOnce`, every event keeps the reduce counter right and never undoes `Done` |
| Coordinator.RunKeepsReduceCounter | internal/coordinator.go:62-157 | with the guarded report `ReportOnce`, the reduce counter stays right along any run that starts with it right |
| Coordinator.RunReduceStaysDone | internal/coordinator.go:172-180 | with the guarded report `ReportOnce`, along any run that starts with the reduce counter right, `Done` stays true once true |
| Coordinator.RunKeepsDone | internal/coordinator.go:172-206 | with the guarded report `ReportOnce`, in a run from `MakeCoordinator` with any files (repeats included) and any nReduce, `Done` stays true once true |
| Hash.EncodeChar | internal/worker.go:32 | a character takes 1 to 4 UTF-8 bytes: 1 iff below 0x80, 2 iff below 0x800, 4 iff at least 0x10000 |
| Hash.Utf8 | internal/worker.go:32 | `[]byte(s)` has between |s| and 4|s| bytes |
| Hash.Utf8Ascii | internal/worker.go:32 | an ASCII string has one byte per character |
| Hash.Sum32a | internal/worker.go:31-33 | the byte-by-byte hash equals FNV-1a of the whole byte sequence |
| Hash.Fnv1aTestVectors | internal/worker.go:31-33 | the published FNV-1a 32-bit values for "", "a" and "foobar" |
| Hash.MaskIsRemainder | internal/worker.go:33 | `& 0x7fffffff` is the remainder modulo 2^31 |
| Hash.Ihash | internal/worker.go:30-34 | 0 <= ihash(key) < 2^31 |
| Hash.GoRem | internal/worker.go:67 | Go's `%` truncates toward zero: a result with the sign of the dividend, a magnitude below the divisor's, and congruent to the dividend modulo the divisor, which together fix it to Go's `a % b` |
| Hash.Partition | internal/worker.go:67 | the partition lies in [0, abs(nReduce)) and is congruent to `ihash(key)` modulo nReduce; for nReduce > 0 it is `ihash(key) mod nReduce` |
| Hash.PartitionExamples | internal/worker.go:30-34 | the hashes of "a", "b", "c" and their partitions among two reduce tasks |
| Decimal.NatToString | internal/coordinator.go:192 | `%d` of a natural number is a non-empty string of digits; it has one digit iff n < 10 and starts with '0' iff n = 0 |
| Decimal.IntToString | internal/worker.go:81 | `%d` of a negative number is '-' followed by digits; otherwise it is digits |
| Decimal.ParseNatToString | apps/wordcount.go:24 | the decimal form reads back as the number |
| Decimal.NatToStringInjective | internal/coordinator.go:192 | distinct numbers have distinct decimal forms |
| Decimal.IntToStringInjective | internal/worker.go:81 | distinct ints have distinct `%d` forms |
| Text.Split | internal/worker.go:120 | `strings.Split` gives at least one piece, and no piece contains the separator |
| Text.Lines | internal/worker.go:120-122 | no line read back contains a newline |
| Text.SplitAfterLine | internal/worker.go:120 | splitting `line + sep + rest` gives the line, then the pieces of the rest |
| Text.SplitTerminated | internal/worker.go:120-122 | splitting newline-terminated lines followed by a tail gives the lines, then the pieces of the tail |
| Text.LinesRoundTrip | internal/worker.go:120-122 | lines written with "%s\n" and read back by split-and-drop-last are the same lines |
| Text.UnterminatedTailDropped | internal/worker.go:120-122 | trailing text without a final newline is silently dropped |
| Text.NoSeparator | internal/worker.go:120 | a string without the separator splits into itself |
| Text.EmptyHasNoLines | internal/worker.go:120-122 | empty content holds no lines, so no records |
| Text.LessIrreflexive | internal/worker.go:23 | no key is less than itself |
| Text.LessTransitive | internal/worker.go:23 | the key order is transitive |
| Text.LessTotal | internal/worker.go:23 | any two distinct keys are ordered |
| Text.LessAsymmetric | internal/worker.go:23 | a key less than another is not greater |
| Text.NotLessTransitive | internal/worker.go:23 | "not less" chains, so pairwise sortedness is transitive |
| KeyValues.Insert | internal/worker.go:131 | inserting adds exactly that record: the result's multiset is the input's plus it |
| KeyValues.SortByKey | internal/worker.go:131 | the sort returns a permutation of its input |
| KeyValues.InsertSorted | internal/worker.go:131 | inserting into a sorted sequence keeps it sorted |
| KeyValues.SortByKeySorted | internal/worker.go:131 | the sort's result is in key order and is a permutation of its input |
| KeyValues.Values | internal/worker.go:142-145 | the collected values are the records' values, position by position |
| KeyValues.RunLength | internal/worker.go:138-141 | the run length is the maximal prefix of records with the key: all within have it, the next does not |
| KeyValues.RunLengthIs | internal/worker.go:138-141 | a prefix with the key that cannot be extended is the run |
| KeyValues.GroupsOf | internal/worker.go:136-151 | there are at most as many groups as records; non-empty input starts with the group of its first key |
| KeyValues.GroupsCoverValues | internal/worker.go:136-151 | the groups hold all values of the input, in input order; the group sizes sum to len(data) |
| KeyValues.GroupKeysAreKeys | internal/worker.go:136-151 | there is a group for every key of the input and for no other key |
| KeyValues.SortedGroupKeysIncrease | internal/worker.go:136-151 | on sorted input the emitted keys are strictly increasing, so there is one line per distinct key |
| KeyValues.SortedGroupValues | internal/worker.go:136-151 | on sorted input each group holds every value recorded under its key, in input order |
| KeyValues.ValuesWithKeyPermutation | internal/worker.go:131 | reordering the records keeps each key's values up to order |
| KeyValues.KeysOfPermutation | internal/worker.go:131 | reordering the records keeps their set of keys |
| KeyValues.GroupsOfSorted | internal/worker.go:131-151 | after the sort, the groups have strictly increasing keys, exactly one per key of the input, and each holds the values recorded under its key, up to order |
| Worker.RecordsFor | internal/worker.go:66-78 | every record in bucket p hashes to p |
| Worker.PartitionRecords | internal/worker.go:65-78 | the bucketing loop produces exactly `Buckets`: one bucket per hit partition, holding that partition's records in emission order |
| Worker.RecordsForEmpty | internal/worker.go:68-71 | a bucket is empty iff no record hashed to its partition, so a file is opened only for a hit partition |
| Worker.RecordsForCount | internal/worker.go:66-77 | each record lands in its own partition's bucket as often as it was emitted, and in no other bucket, so the buckets together are a permutation of the output |
| Worker.RecordsForAppend | internal/worker.go:66-77 | bucketing keeps emission order |
| Worker.EmptyOutputNoBuckets | internal/worker.go:65-66 | zero records give no buckets |
| Worker.IntermediateNameInjective | internal/worker.go:81 | one map task's intermediate files have distinct names |
| Worker.IntermediateName | internal/worker.go:81 | the name `mr-<m>-<p>` a map task renames the file of partition p to |
| Worker.OutputName | internal/worker.go:133 | the name `mr-out-<r>` of a reduce task's output |
| Worker.IntermediateIsNotOutput | internal/worker.go:81 | no intermediate file name is an output file name |
| Worker.EncodeAll | internal/worker.go:76-77 | one encoded line per record, in order |
| Worker.DecodeEncodeAll | internal/worker.go:123-127 | decoding the encoded lines gives back the records |
| Worker.RecordFileRoundTrip | internal/worker.go:120-127 | a file written one JSON line per record decodes back to those records |
| Worker.IntermediateFiles | internal/worker.go:80-82 | after the renames, `mr-<m>-<p>` holds bucket p's records for every bucket, and no other file is created |
| Worker.ExecuteMapTask | internal/worker.go:54-84 | the map task fails when the input is missing or records meet nReduce = 0, leaves the files alone when there are no records, and otherwise adds the bucket files |
| Worker.MapTaskWrites | internal/worker.go:54-84 | when the input exists and nReduce is not 0, the task adds exactly the bucket files |
| Worker.BucketFilesOnlyIntermediate | internal/worker.go:80-82 | a map task creates or changes only files `mr-<m>-<p>` for partitions p that some record hashed to |
| Worker.BucketFileExists | internal/worker.go:65-82 | `mr-<m>-<p>` exists afterwards iff it existed before or some record hashed to p |
| Worker.BucketFileContents | internal/worker.go:66-82 | the file of a hit partition decodes to that partition's records in emission order |
| Worker.MatchesAt | internal/worker.go:92 | the pattern `mr-\d-<r>` occurs at a given index of the path, with `\d` one ASCII digit |
| Worker.MatchesAsWritten | internal/worker.go:92 | as written: the unanchored pattern occurs somewhere in the path |
| Worker.SmallMapNumberMatches | internal/worker.go:92 | as written, an intermediate file of map task 0..9 is selected by the reduce task of its partition |
| Worker.LargeMapNumberSkipped | internal/worker.go:92 | as written, no reduce task ever selects an intermediate file of map task 10 or later |
| Worker.LongerPartitionMatches | internal/worker.go:92 | as written, reduce task r >= 1 also selects the files of partitions 10r..10r+9 |
| Worker.MatcherCounterexamples | internal/worker.go:92 | reduce task 0 misses `mr-10-0`, and reduce task 1 selects `mr-0-10` |
| Worker.OutputNeverMatchesAsWritten | internal/worker.go:92 | as written, `mr-out-<x>` is never selected |
| Worker.IntermediateForIff | internal/worker.go:92 | the anchored selection picks `mr-<m>-<p>` for reduce task r iff p = r, for every map number |
| Worker.IsIntermediateFor | internal/worker.go:92 | corrected: the whole path is `mr-<digits>-<r>` |
| Worker.OutputIsNotIntermediate | internal/worker.go:92 | the anchored selection never picks an output file |
| Worker.MatchingMembers | internal/worker.go:86-104 | for any test `sel`, a path is selected iff it was walked and passes the test |
| Worker.WalkDir | internal/worker.go:86-104 | the walk callback appends exactly the walked paths that pass the test, in walk order |
| Worker.AsWrittenDropsLateMaps | internal/worker.go:86-104 | with the source's pattern, no intermediate file of map task 10 or later is ever selected, whatever was walked |
| Worker.AsWrittenReadsOtherPartitions | internal/worker.go:86-104 | with the source's pattern, reduce task r >= 1 also selects the walked files of partitions 10r..10r+9 |
| Worker.SelectLateMap | internal/worker.go:92 | a walked `mr-10-0` is selected for reduce task 0 by the corrected test and not by the source's pattern |
| Worker.IntendedSelection | internal/worker.go:86-104 | with the corrected test, a walked `mr-<m>-<p>` is selected iff p is the task's partition, for every map number |
| Worker.DecodeAllFails | internal/worker.go:123-126 | one line that does not decode makes the whole read fail |
| Worker.ReadAllFails | internal/worker.go:109-126 | one file that fails makes the whole read fail |
| Worker.ReadInput | internal/worker.go:107-130 | the reading loops append, file after file, the decoded records of every selected file, or fail as a whole |
| Worker.ReadAllRecordFiles | internal/worker.go:109-130 | reading files written by map tasks gives back their records, file after file |
| Worker.RunEnd | internal/worker.go:138-141 | the inner scan stops at the end of the run of equal keys |
| Worker.CollectValues | internal/worker.go:142-145 | the collected values are those of the run, in order |
| Worker.EmitGroups | internal/worker.go:136-151 | the output loop writes "<key> <reducef(key, values)>\n" once per group of equal keys, in order |
| Worker.ExecuteReduceTask | internal/worker.go:106-154 | the reduce task selects with the given test, reads, sorts, and then writes `mr-out-<r>` from the groups of the sorted records |
| Worker.ReduceTaskWrites | internal/worker.go:133-153 | a reduce task writes only `mr-out-<r>`, and creates it, empty, even when no file was selected, whatever test selects the files |
| Worker.LateMapRecordsLost | internal/worker.go:86-154 | a walked `mr-10-0` holding one record: reduce task 0 writes an empty `mr-out-0` with the source's pattern, and the record's line with the corrected test |
| WordCount.LetterRun | apps/wordcount.go:13-14 | the run length is the maximal prefix of letters |
| WordCount.Fields | apps/wordcount.go:13-14 | every word is non-empty and made only of letters |
| WordCount.Ones | apps/wordcount.go:16-19 | one record per word, in order, keyed by the word, with the value "1" |
| WordCount.Map | apps/wordcount.go:11-21 | `Map` emits the words of the contents, each with "1"; every key is non-empty and all letters |
| WordCount.Reduce | apps/wordcount.go:23-25 | `Reduce` returns a string of digits that reads back as the number of values |
| WordCount.FieldsConcat | apps/wordcount.go:14-19 | joined in order, the words are the contents with every non-letter removed |
| WordCount.FieldsCount | apps/wordcount.go:14 | there are as many words as positions where a run of letters starts |
| WordCount.OnesWithKey | apps/wordcount.go:16-19 | the values recorded under a word number its occurrences |
| WordCount.WordGroups | apps/wordcount.go:11-25 | after the shuffle and sort, the group keys are exactly the words of the input |
| WordCount.WordCounts | apps/wordcount.go:11-25 | each word's group holds as many values as the word's occurrences, so `Reduce` writes its count |
| WordCount.ExampleFields | apps/wordcount.go:13-14 | "a b a" splits into a, b, a, and "b c" into b, c |
| WordCount.MapReduceExample | apps/wordcount.go:11-25 | `Map` on "a b a" gives (a,1), (b,1), (a,1), and `Reduce("a", ["1","1"])` is "2" |
| WordCount.TwoFileExample | apps/wordcount.go:11-25 | over "a b a" and "b c", the groups are a, b and c, with counts 2, 2 and 1 |

## Left out

- Concurrency is not modelled: the mutex, the condition variable, `Wait`/`Broadcast` and the rescheduler goroutine. A task request is one atomic step that may answer `MustWait`; a woken caller's retry is a fresh request. The rescheduler is one pass per call.
- Coordinator.Coordinator.GetTask: a request that would block answers `MustWait`, and the caller's retry is a fresh request, which may again wait, get a task or be told there are no more tasks. In the source, a map request blocked in its wait loop falls through to the reduce phase once `mRemaining` is 0. A request blocked in the reduce loop stays there even if `mRemaining` has since gone negative, while a fresh request goes to the map branch.
- Wall-clock time is the integer `now` in seconds. `time.Now().UTC()` and `Sub().Seconds()` are not modelled.
- The RPC transport is not modelled: `server`, `call`, `CallGetTask`, `CallUpdateTaskStatus` and `coordinatorSock` with its dependence on the user id. Only the message records are modelled.
- Coordinator.Coordinator.UpdateTaskStatus requires the reported name to be in the table. In the source, an unknown name dereferences a nil `*TaskMeta` and panics.
- `TaskMeta` pointers are values in the maps. Every entry has its own allocation, so there is no aliasing between tasks to lose.
- The `Worker` loop is not modelled; it exits only through `log.Fatal`. The per-task functions are modelled, and a fatal exit is a `None` result. Logging and `fmt.Printf` are not modelled.
- The file system is a map. Temporary files, `os.Rename` atomicity, and two attempts of one map task racing to rename the same file are not modelled.
- Worker.WalkDir takes the paths the directory walk visits, in walk order. The traversal and its error result are not modelled.
- JSON `Marshal`/`Unmarshal` is an abstract codec that round-trips and emits no newline. The JSON text itself is not modelled.
- Worker.DecodeAll decodes each line on its own. The source decodes every line into one reused `KeyValue` variable. A line such as `null`, or an object without `Key` or `Value`, therefore keeps the previous record's fields and appends a stale or duplicated record. This stale-field reuse is not modelled. It matters only for lines that `Marshal` did not write.
- `unicode.IsLetter` is the parameter `isLetter`. `strings.FieldsFunc` is the function `Fields`.
- Worker.PartitionRecords is stated for any partition rule. Worker.ExecuteMapTask instantiates it with `ihash(key) % nReduce`.
- Hash.EncodeChar states only the byte lengths of UTF-8 in its contract. The byte values are in its body and are used only through `Ihash`.
- File contents, keys and values are strings of Unicode scalar values, not Go's byte strings, so input that is not valid UTF-8 cannot be represented. For this core that loses nothing: `strings.FieldsFunc` reads a bad byte as U+FFFD, which is not a letter, so every key the map function emits is valid UTF-8.
- Key order is code-point lexicographic order. For UTF-8 this is the same as Go's byte-wise `<`; that is a property of the encoding, not proved here.
- KeyValues.SortByKey is an insertion sort standing in for `sort.Sort`. Every property of the reduce output except Worker.EmitGroups's exact text holds for any sorted permutation. The order of values within one key is not stated, because the library sort is not stable.
- `cmd/mr/main.go` is not part of this model: argument handling, plugin loading and the polling loop.
- Go's `int` is 64 bits wide, and the model's counters and task numbers are unbounded. They never come near the limit. The hash is computed on explicit 32-bit bit-vectors.

## Findings

| source | as written | input that shows it | evidently intended | confidence | as-written member | corrected member |
|---|---|---|---|---|---|---|
| internal/coordinator.go:105-116 | `UpdateTaskStatus` marks the task completed and decrements its counter without checking the task's prior status | a task that times out, is handed out again, and is reported by both workers. With map tasks "f" and "g" in progress, two reports for "f" start the reduce phase before "g" is done (`EarlyReducePhase`). With reduce tasks "0" and "1" in progress, two reports for "0" make `Done` true before "1" is done (`EarlyDone`). A late map report during the reduce phase sets `mRemaining` to -1, and the job hangs (`LateMapReportStalls`). A late reduce report after the job is done makes `Done` false again (`LateReportUndoesDone`) | a report for an already completed task is ignored, so each counter stays equal to the number of non-completed tasks and `Done` stays true | high (proved; not executed) | Coordinator.DuplicateReportBreaksCounters, Coordinator.EarlyReducePhase, Coordinator.EarlyDone, Coordinator.LateMapReportStalls | Coordinator.ReportOnceKeepsCounters |
| internal/worker.go:92 | `regexp.Match("mr-\d-<r>", path)` is unanchored and allows one digit for the map number | `mr-10-0` is never read by reduce task 0, so the records of the eleventh input file never reach any output; with nReduce above 10, `mr-0-10` is also read by reduce task 1 | a path is selected iff it is `mr-<digits>-<r>` as a whole | high (proved; not executed) | Worker.MatcherCounterexamples | Worker.IntermediateForIff |

The as-written behaviour is `Coordinator.Report`, with `Coordinator.LateReportUndoesDone`. The corrected one is `Coordinator.ReportOnce`, which the event model `Coordinator.Next` uses. The as-written selector is `Worker.MatchesAsWritten`, with `Worker.LargeMapNumberSkipped` and `Worker.LongerPartitionMatches`. The corrected selector is `Worker.IsIntermediateFor`. `Worker.WalkDir` and `Worker.ExecuteReduceTask` take the selector as a parameter. `Worker.LateMapRecordsLost` runs one reduce task with each selector and shows the lost records.

=== FILE: coordinator.dfy ===
/**
 * The coordinator's task scheduler: two task tables (map tasks keyed by input
 * file name, reduce tasks keyed by the decimal partition number), a counter of
 * remaining tasks per phase and the partition count `nReduce`.
 *
 * The pure functions over `Snapshot` say what each operation does to the whole
 * job state; the class `Coordinator` keeps that state in fields and its methods
 * are proved to perform exactly those transitions. The mutex, the condition
 * variable and the rescheduler goroutine are replaced by atomic steps: a task
 * request that would block returns `MustWait`, and the rescheduler is one scan.
 * Time is an integer number of seconds passed in as `now`.
 */
module Coordinator {
  import opened Rpc
  import Decimal

  datatype Status = Unstarted | InProgress | Completed

  /** The bookkeeping of one task; `startTime` is the second it was last handed out. */
  datatype TaskMeta = TaskMeta(number: int, startTime: int, status: Status)

  type TaskTable = map<string, TaskMeta>

  /** An in-progress task older than this many seconds is handed out again. */
  const Timeout: int := 10

  /** The whole job state as a value. */
  datatype Snapshot = Snapshot(
    mTasks: TaskTable,
    rTasks: TaskTable,
    mRemaining: int,
    rRemaining: int,
    nReduce: int)

  /** The result of one task request; `MustWait` stands for blocking on the condition variable. */
  datatype GetTaskOutcome = Assigned(reply: GetTaskReply) | MustWait | NoMoreTasks

  // ---------------------------------------------------------------------------
  // Task tables

  /** The names of the tasks that are not completed. */
  function Pending(t: TaskTable): set<string> {
    set k | k in t && t[k].status != Completed
  }

  predicate IsUnstarted(t: TaskTable, name: string) {
    name in t && t[name].status == Unstarted
  }

  predicate HasUnstarted(t: TaskTable) {
    exists k :: k in t && t[k].status == Unstarted
  }

  /** No task leaves the completed state between `t` and `t'`. */
  predicate KeepsCompleted(t: TaskTable, t': TaskTable) {
    forall k :: k in t && t[k].status == Completed ==> k in t' && t'[k].status == Completed
  }

  predicate Expired(meta: TaskMeta, now: int) {
    meta.status == InProgress && now - meta.startTime > Timeout
  }

  /** Hands out the unstarted task `name` at time `now`. */
  function Start(t: TaskTable, name: string, now: int): (r: TaskTable)
    requires IsUnstarted(t, name)
    ensures r.Keys == t.Keys
    ensures r[name].status == InProgress && r[name].startTime == now && r[name].number == t[name].number
    ensures forall k :: k in t && k != name ==> r[k] == t[k]
    ensures Pending(r) == Pending(t)
    ensures KeepsCompleted(t, r)
  {
    t[name := TaskMeta(t[name].number, now, InProgress)]
  }

  /** Marks the task `name` completed, whatever its status was. */
  function Complete(t: TaskTable, name: string): (r: TaskTable)
    requires name in t
    ensures r.Keys == t.Keys
    ensures r[name].status == Completed && r[name].number == t[name].number
    ensures forall k :: k in t && k != name ==> r[k] == t[k]
    ensures Pending(r) == Pending(t) - {name}
    ensures KeepsCompleted(t, r)
  {
    t[name := t[name].(status := Completed)]
  }

  /** One timeout scan of a table: expired in-progress tasks become unstarted again. */
  function Rescan(t: TaskTable, now: int): (r: TaskTable)
    ensures r.Keys == t.Keys
    ensures forall k :: k in t ==> r[k].number == t[k].number && r[k].startTime == t[k].startTime
    ensures forall k :: k in t ==>
      (r[k].status == Unstarted <==> t[k].status == Unstarted || Expired(t[k], now))
    ensures forall k :: k in t ==>
      (r[k].status == InProgress <==> t[k].status == InProgress && now - t[k].startTime <= Timeout)
    ensures Pending(r) == Pending(t)
    ensures KeepsCompleted(t, r)
  {
    map k | k in t :: if Expired(t[k], now) then t[k].(status := Unstarted) else t[k]
  }

  // ---------------------------------------------------------------------------
  // Job state

  function Table(s: Snapshot, typ: TaskType): TaskTable {
    if typ == MapType then s.mTasks else s.rTasks
  }

  function Remaining(s: Snapshot, typ: TaskType): int {
    if typ == MapType then s.mRemaining else s.rRemaining
  }

  function Other(typ: TaskType): TaskType {
    if typ == MapType then ReduceType else MapType
  }

  /** Each counter equals the number of tasks of its kind that are not completed. */
  predicate CountersMatch(s: Snapshot) {
    s.mRemaining == |Pending(s.mTasks)| && s.rRemaining == |Pending(s.rTasks)|
  }

  /** The job is finished once no reduce task remains. */
  predicate Done(s: Snapshot) {
    s.rRemaining == 0
  }

  /** The table the scheduler works on: map tasks first, then reduce tasks. */
  function ActiveTable(s: Snapshot): TaskTable {
    if s.mRemaining != 0 then s.mTasks else if s.rRemaining != 0 then s.rTasks else map[]
  }

  /**
   * The task the scan of the active table stops at: Go visits a map in an
   * unspecified order and takes the first unstarted task it meets, so any
   * unstarted task may be the one chosen.
   */
  predicate ValidPick(s: Snapshot, pick: string) {
    HasUnstarted(ActiveTable(s)) ==> IsUnstarted(ActiveTable(s), pick)
  }

  /**
   * One task request, decided atomically. While map tasks remain, a map task
   * is handed out or the caller must wait; then the same for reduce tasks;
   * when neither remains the request fails. A selected task named "" is
   * treated like no task at all, as the source compares names with "".
   */
  function GetTaskStep(s: Snapshot, pick: string, now: int): (r: (Snapshot, GetTaskOutcome))
    requires ValidPick(s, pick)
    ensures r.0.mRemaining == s.mRemaining && r.0.rRemaining == s.rRemaining && r.0.nReduce == s.nReduce
    ensures Pending(r.0.mTasks) == Pending(s.mTasks) && Pending(r.0.rTasks) == Pending(s.rTasks)
    ensures KeepsCompleted(s.mTasks, r.0.mTasks) && KeepsCompleted(s.rTasks, r.0.rTasks)
    // phase ordering
    ensures s.mRemaining != 0 ==> r.1.MustWait? || (r.1.Assigned? && r.1.reply.taskType == MapType)
    ensures r.1.Assigned? && r.1.reply.taskType == ReduceType ==> s.mRemaining == 0 && r.1.reply.nReduce == 0
    ensures r.1.Assigned? && r.1.reply.taskType == MapType ==> r.1.reply.nReduce == s.nReduce
    ensures r.1.NoMoreTasks? <==> s.mRemaining == 0 && s.rRemaining == 0
    // the task handed out was unstarted and is now in progress since `now`
    ensures r.1.Assigned? ==>
      var typ, name := r.1.reply.taskType, r.1.reply.name;
      && name != ""
      && IsUnstarted(Table(s, typ), name)
      && r.1.reply.number == Table(s, typ)[name].number
      && Table(r.0, typ) == Start(Table(s, typ), name, now)
      && Table(r.0, Other(typ)) == Table(s, Other(typ))
    // waiting happens only when nothing can be handed out, and changes nothing
    ensures r.1.MustWait? ==> !HasUnstarted(ActiveTable(s)) || (pick == "" && IsUnstarted(ActiveTable(s), ""))
    ensures !r.1.Assigned? && !IsUnstarted(ActiveTable(s), "") ==> r.0 == s
  {
    if s.mRemaining != 0 then
      if IsUnstarted(s.mTasks, pick) then
        var s' := s.(mTasks := Start(s.mTasks, pick, now));
        if pick != "" then (s', Assigned(GetTaskReply(pick, s.mTasks[pick].number, s.nReduce, MapType)))
        else (s', MustWait)
      else (s, MustWait)
    else if s.rRemaining != 0 then
      if IsUnstarted(s.rTasks, pick) then
        var s' := s.(rTasks := Start(s.rTasks, pick, now));
        if pick != "" then (s', Assigned(GetTaskReply(pick, s.rTasks[pick].number, 0, ReduceType)))
        else (s', MustWait)
      else (s, MustWait)
    else
      (s, NoMoreTasks)
  }

  /**
   * A completion report, as the source handles it: the task is marked
   * completed and its counter drops by one even when the task had already
   * been completed.
   */
  function Report(s: Snapshot, name: string, typ: TaskType): (r: Snapshot)
    requires name in Table(s, typ)
    ensures Table(r, typ).Keys == Table(s, typ).Keys && Table(r, typ)[name].status == Completed
    ensures Pending(Table(r, typ)) == Pending(Table(s, typ)) - {name}
    ensures KeepsCompleted(Table(s, typ), Table(r, typ))
    ensures Remaining(r, typ) == Remaining(s, typ) - 1
    ensures Table(r, Other(typ)) == Table(s, Other(typ)) && Remaining(r, Other(typ)) == Remaining(s, Other(typ))
    ensures r.nReduce == s.nReduce
  {
    if typ == MapType then s.(mTasks := Complete(s.mTasks, name), mRemaining := s.mRemaining - 1)
    else s.(rTasks := Complete(s.rTasks, name), rRemaining := s.rRemaining - 1)
  }

  /** A completion report that ignores tasks already completed. */
  function ReportOnce(s: Snapshot, name: string, typ: TaskType): (r: Snapshot)
    requires name in Table(s, typ)
    ensures Table(s, typ)[name].status == Completed ==> r == s
    ensures Table(s, typ)[name].status != Completed ==> r == Report(s, name, typ)
  {
    if Table(s, typ)[name].status == Completed then s else Report(s, name, typ)
  }

  /**
   * One pass of the rescheduler: while map tasks remain only map tasks are
   * scanned, then only reduce tasks; when nothing remains the loop stops.
   */
  function ReschedulePass(s: Snapshot, now: int): (r: (Snapshot, bool))
    ensures r.1 <==> s.mRemaining == 0 && s.rRemaining == 0
    ensures r.0.mRemaining == s.mRemaining && r.0.rRemaining == s.rRemaining && r.0.nReduce == s.nReduce
    ensures ActiveTable(r.0) == Rescan(ActiveTable(s), now)
    ensures s.mRemaining != 0 ==> r.0.rTasks == s.rTasks
    ensures s.mRemaining == 0 ==> r.0.mTasks == s.mTasks
    ensures s.mRemaining == 0 && s.rRemaining == 0 ==> r.0 == s
    ensures Pending(r.0.mTasks) == Pending(s.mTasks) && Pending(r.0.rTasks) == Pending(s.rTasks)
    ensures KeepsCompleted(s.mTasks, r.0.mTasks) && KeepsCompleted(s.rTasks, r.0.rTasks)
  {
    if s.mRemaining != 0 then (s.(mTasks := Rescan(s.mTasks, now)), false)
    else if s.rRemaining != 0 then (s.(rTasks := Rescan(s.rTasks, now)), false)
    else (s, true)
  }

  // ---------------------------------------------------------------------------
  // Construction

  predicate Distinct(files: seq<string>) {
    forall i, j :: 0 <= i < j < |files| ==> files[i] != files[j]
  }

  /**
   * One unstarted map task per input file, numbered by its position; a name
   * listed twice keeps the number of its last occurrence.
   */
  function InitialMapTasks(files: seq<string>): (t: TaskTable)
    ensures t.Keys == set i | 0 <= i < |files| :: files[i]
    ensures forall k :: k in t ==>
      && t[k].status == Unstarted && t[k].startTime == 0
      && 0 <= t[k].number < |files| && files[t[k].number] == k
      && forall j :: t[k].number < j < |files| ==> files[j] != k
  {
    if files == [] then map[]
    else
      var n := |files| - 1;
      var prev := InitialMapTasks(files[..n]);
      assert forall j :: 0 <= j < n ==> files[..n][j] == files[j];
      prev[files[n] := TaskMeta(n, 0, Unstarted)]
  }

  /** Unstarted reduce tasks named "0" .. "nReduce-1", each numbered by its partition. */
  function InitialReduceTasks(n: int): (t: TaskTable)
    ensures |t| == if n <= 0 then 0 else n
    ensures forall i :: 0 <= i < n ==> Decimal.NatToString(i) in t
    ensures forall k :: k in t ==>
      && t[k].status == Unstarted && t[k].startTime == 0
      && 0 <= t[k].number < n && k == Decimal.NatToString(t[k].number)
  {
    if n <= 0 then map[]
    else
      var prev := InitialReduceTasks(n - 1);
      var name := Decimal.NatToString(n - 1);
      assert name !in prev by {
        if name in prev {
          Decimal.NatToStringInjective(prev[name].number, n - 1);
        }
      }
      prev[name := TaskMeta(n - 1, 0, Unstarted)]
  }

  lemma {:induction false} ReduceTasksStep(i: nat)
    ensures InitialReduceTasks(i + 1) == InitialReduceTasks(i)[Decimal.NatToString(i) := TaskMeta(i, 0, Unstarted)]
  {
  }

  /** Reduce task i is the one named by the decimal form of i. */
  lemma {:induction false} ReduceTaskNumbered(n: int, i: int)
    requires 0 <= i < n
    ensures Decimal.NatToString(i) in InitialReduceTasks(n)
    ensures InitialReduceTasks(n)[Decimal.NatToString(i)] == TaskMeta(i, 0, Unstarted)
  {
    var t := InitialReduceTasks(n);
    Decimal.NatToStringInjective(t[Decimal.NatToString(i)].number, i);
  }

  /** The state `MakeCoordinator(files, nReduce)` starts from. */
  function Initial(files: seq<string>, nReduce: int): (s: Snapshot)
    ensures s.mRemaining == |files| && s.rRemaining == nReduce && s.nReduce == nReduce
    ensures forall k :: k in s.mTasks ==> s.mTasks[k].status == Unstarted
    ensures forall k :: k in s.rTasks ==> s.rTasks[k].status == Unstarted
  {
    Snapshot(InitialMapTasks(files), InitialReduceTasks(nReduce), |files|, nReduce, nReduce)
  }

  // ---------------------------------------------------------------------------
  // The coordinator object

  class Coordinator {
    var mTasks: TaskTable
    var rTasks: TaskTable
    var mRemaining: int
    var rRemaining: int
    const nReduce: int

    ghost function View(): Snapshot
      reads this
    {
      Snapshot(mTasks, rTasks, mRemaining, rRemaining, nReduce)
    }

    /** MakeCoordinator, without starting the server and the rescheduler. */
    constructor (files: seq<string>, nReduce: int)
      ensures View() == Initial(files, nReduce)
    {
      var m := BuildMapTasks(files);
      var r := BuildReduceTasks(nReduce);
      mTasks, rTasks := m, r;
      mRemaining, rRemaining := |files|, nReduce;
      this.nReduce := nReduce;
    }

    /** getMTask */
    method TakeMapTask(now: int) returns (name: string, number: int)
      modifies this`mTasks
      ensures IsUnstarted(old(mTasks), name) || (name == "" && number == 0 && !HasUnstarted(old(mTasks)))
      ensures HasUnstarted(old(mTasks)) ==>
        IsUnstarted(old(mTasks), name) && number == old(mTasks)[name].number
        && mTasks == Start(old(mTasks), name, now)
      ensures !HasUnstarted(old(mTasks)) ==> mTasks == old(mTasks)
    {
      mTasks, name, number := SelectUnstarted(mTasks, now);
    }

    /** getRTask */
    method TakeReduceTask(now: int) returns (name: string, number: int)
      modifies this`rTasks
      ensures IsUnstarted(old(rTasks), name) || (name == "" && number == 0 && !HasUnstarted(old(rTasks)))
      ensures HasUnstarted(old(rTasks)) ==>
        IsUnstarted(old(rTasks), name) && number == old(rTasks)[name].number
        && rTasks == Start(old(rTasks), name, now)
      ensures !HasUnstarted(old(rTasks)) ==> rTasks == old(rTasks)
    {
      rTasks, name, number := SelectUnstarted(rTasks, now);
    }

    /** GetTask, as one atomic attempt; a retry after waking is a fresh call. */
    method GetTask(now: int) returns (outcome: GetTaskOutcome)
      modifies this`mTasks, this`rTasks
      ensures exists pick :: ValidPick(old(View()), pick) && (View(), outcome) == GetTaskStep(old(View()), pick, now)
    {
      if mRemaining != 0 {
        var name, number := TakeMapTask(now);
        assert ValidPick(old(View()), name);
        if name != "" {
          outcome := Assigned(GetTaskReply(name, number, nReduce, MapType));
        } else {
          outcome := MustWait;
        }
        return;
      }
      if rRemaining != 0 {
        var name, number := TakeReduceTask(now);
        assert ValidPick(old(View()), name);
        if name != "" {
          outcome := Assigned(GetTaskReply(name, number, 0, ReduceType));
        } else {
          outcome := MustWait;
        }
        return;
      }
      outcome := NoMoreTasks;
      assert ValidPick(old(View()), "");
    }

    /** UpdateTaskStatus, as written: no check of the task's prior status. */
    method UpdateTaskStatus(name: string, taskType: TaskType)
      requires name in Table(View(), taskType)
      modifies this`mTasks, this`rTasks, this`mRemaining, this`rRemaining
      ensures View() == Report(old(View()), name, taskType)
    {
      if taskType == MapType {
        mTasks := mTasks[name := mTasks[name].(status := Completed)];
        mRemaining := mRemaining - 1;
      } else {
        rTasks := rTasks[name := rTasks[name].(status := Completed)];
        rRemaining := rRemaining - 1;
      }
    }

    /** UpdateTaskStatus with the guard against duplicate reports. */
    method CompleteTaskOnce(name: string, taskType: TaskType)
      requires name in Table(View(), taskType)
      modifies this`mTasks, this`rTasks, this`mRemaining, this`rRemaining
      ensures View() == ReportOnce(old(View()), name, taskType)
    {
      var status := if taskType == MapType then mTasks[name].status else rTasks[name].status;
      if status != Completed {
        UpdateTaskStatus(name, taskType);
      }
    }

    /** One iteration of the rescheduler loop; `stop` is its `break`. */
    method RescheduleStep(now: int) returns (stop: bool)
      modifies this`mTasks, this`rTasks
      ensures (View(), stop) == ReschedulePass(old(View()), now)
    {
      stop := false;
      if mRemaining != 0 {
        mTasks := RescanTable(mTasks, now);
      } else if rRemaining != 0 {
        rTasks := RescanTable(rTasks, now);
      } else {
        stop := true;
      }
    }

    method Done() returns (done: bool)
      ensures done <==> rRemaining == 0
      ensures CountersMatch(View()) ==> (done <==> forall k :: k in rTasks ==> rTasks[k].status == Completed)
    {
      done := rRemaining == 0;
      if CountersMatch(View()) {
        PendingEmpty(rTasks);
      }
    }
  }

  /** The first loop of MakeCoordinator. */
  method BuildMapTasks(files: seq<string>) returns (m: TaskTable)
    ensures m == InitialMapTasks(files)
  {
    m := map[];
    for i := 0 to |files|
      invariant m == InitialMapTasks(files[..i])
    {
      assert files[..i + 1][..i] == files[..i];
      m := m[files[i] := TaskMeta(i, 0, Unstarted)];
    }
    assert files[..|files|] == files;
  }

  /** The second loop of MakeCoordinator; it runs zero times when nReduce <= 0. */
  method BuildReduceTasks(nReduce: int) returns (r: TaskTable)
    ensures r == InitialReduceTasks(nReduce)
  {
    r := map[];
    var i := 0;
    while i < nReduce
      invariant 0 <= i <= (if nReduce < 0 then 0 else nReduce)
      invariant r == InitialReduceTasks(i)
    {
      ReduceTasksStep(i);
      r := r[Decimal.NatToString(i) := TaskMeta(i, 0, Unstarted)];
      i := i + 1;
    }
    if nReduce < 0 {
      assert InitialReduceTasks(nReduce) == map[] == InitialReduceTasks(i);
    } else {
      assert i == nReduce;
    }
  }

  /** The scan of getMTask and getRTask over one table. */
  method SelectUnstarted(t: TaskTable, now: int) returns (r: TaskTable, name: string, number: int)
    ensures IsUnstarted(t, name) || (name == "" && number == 0 && !HasUnstarted(t))
    ensures HasUnstarted(t) ==> IsUnstarted(t, name) && number == t[name].number && r == Start(t, name, now)
    ensures !HasUnstarted(t) ==> r == t
  {
    var todo := t.Keys;
    while todo != {}
      invariant todo <= t.Keys
      invariant forall k :: k in t && k !in todo ==> !IsUnstarted(t, k)
      decreases todo
    {
      var k :| k in todo;
      if t[k].status == Unstarted {
        return Start(t, k, now), k, t[k].number;
      }
      todo := todo - {k};
    }
    return t, "", 0;
  }

  /** The timeout scan of the rescheduler, one task at a time. */
  method RescanTable(t: TaskTable, now: int) returns (r: TaskTable)
    ensures r == Rescan(t, now)
  {
    r := t;
    var todo := t.Keys;
    while todo != {}
      invariant todo <= t.Keys && r.Keys == t.Keys
      invariant forall k :: k in todo ==> r[k] == t[k]
      invariant forall k :: k in t && k !in todo ==> r[k] == Rescan(t, now)[k]
      decreases todo
    {
      var k :| k in todo;
      if r[k].status == InProgress && now - r[k].startTime > Timeout {
        r := r[k := r[k].(status := Unstarted)];
      }
      todo := todo - {k};
    }
  }

  // ---------------------------------------------------------------------------
  // Properties

  lemma {:induction false} PendingEmpty(t: TaskTable)
    ensures |Pending(t)| == 0 <==> forall k :: k in t ==> t[k].status == Completed
  {
    if forall k :: k in t ==> t[k].status == Completed {
      assert Pending(t) == {};
    } else {
      var k :| k in t && t[k].status != Completed;
      assert k in Pending(t);
    }
  }

  /** While the counters match, a reduce task is handed out only after every map task completed. */
  lemma {:induction false} ReduceOnlyAfterMapPhase(s: Snapshot, pick: string, now: int)
    requires CountersMatch(s) && ValidPick(s, pick)
    requires GetTaskStep(s, pick, now).1.Assigned? && GetTaskStep(s, pick, now).1.reply.taskType == ReduceType
    ensures forall k :: k in s.mTasks ==> s.mTasks[k].status == Completed
  {
    PendingEmpty(s.mTasks);
  }

  /** The first completion report of a task keeps each counter equal to its pending count. */
  lemma {:induction false} FirstReportKeepsCounters(s: Snapshot, name: string, typ: TaskType)
    requires CountersMatch(s) && name in Table(s, typ) && Table(s, typ)[name].status != Completed
    ensures CountersMatch(Report(s, name, typ))
  {
    assert name in Pending(Table(s, typ));
  }

  /** A second report for a completed task leaves its counter one below the pending count. */
  lemma {:induction false} DuplicateReportBreaksCounters(s: Snapshot, name: string, typ: TaskType)
    requires CountersMatch(s) && name in Table(s, typ) && Table(s, typ)[name].status == Completed
    ensures Remaining(Report(s, name, typ), typ) == |Pending(Table(Report(s, name, typ), typ))| - 1
    ensures !CountersMatch(Report(s, name, typ))
  {
    assert name !in Pending(Table(s, typ));
    assert Pending(Table(s, typ)) - {name} == Pending(Table(s, typ));
  }

  /**
   * A late report for the only reduce task, after its replacement already
   * finished it, turns a finished job back into an unfinished one.
   */
  lemma {:induction false} LateReportUndoesDone()
    ensures var s := Snapshot(map[], map["0" := TaskMeta(0, 0, Completed)], 0, 0, 1);
      CountersMatch(s) && Done(s) && !Done(Report(s, "0", ReduceType))
  {
    var s := Snapshot(map[], map["0" := TaskMeta(0, 0, Completed)], 0, 0, 1);
    assert Pending(s.rTasks) == {};
  }

  /**
   * A map task that timed out and was handed out again is reported by both of
   * its workers. Two map tasks were in progress, so `mRemaining` reaches 0
   * while "g" is still in progress, and the next request starts the reduce
   * phase without the output of "g".
   */
  lemma {:induction false} EarlyReducePhase(now: int)
    ensures var s := Snapshot(map["f" := TaskMeta(0, 0, InProgress), "g" := TaskMeta(1, 0, InProgress)],
                              map["0" := TaskMeta(0, 0, Unstarted)], 2, 1, 1);
      var s2 := Report(Report(s, "f", MapType), "f", MapType);
      && CountersMatch(s)
      && s2.mTasks["g"].status == InProgress && ValidPick(s2, "0")
      && GetTaskStep(s2, "0", now).1 == Assigned(GetTaskReply("0", 0, 0, ReduceType))
  {
    var s := Snapshot(map["f" := TaskMeta(0, 0, InProgress), "g" := TaskMeta(1, 0, InProgress)],
                      map["0" := TaskMeta(0, 0, Unstarted)], 2, 1, 1);
    assert Pending(s.mTasks) == {"f", "g"};
    assert Pending(s.rTasks) == {"0"};
  }

  /**
   * The same for reduce tasks: two reports for "0" make the job done while
   * reduce task "1" is still in progress, so the coordinator may exit before
   * its output is written.
   */
  lemma {:induction false} EarlyDone()
    ensures var s := Snapshot(map[], map["0" := TaskMeta(0, 0, InProgress), "1" := TaskMeta(1, 0, InProgress)], 0, 2, 2);
      var s2 := Report(Report(s, "0", ReduceType), "0", ReduceType);
      CountersMatch(s) && !Done(s) && Done(s2) && s2.rTasks["1"].status == InProgress
  {
    var s := Snapshot(map[], map["0" := TaskMeta(0, 0, InProgress), "1" := TaskMeta(1, 0, InProgress)], 0, 2, 2);
    assert Pending(s.mTasks) == {};
    assert Pending(s.rTasks) == {"0", "1"};
  }

  /**
   * A late report for a completed map task during the reduce phase drives
   * `mRemaining` to -1. From then on every request waits, and the rescheduler
   * scans the map table instead of the reduce table, so the expired reduce
   * task "0" is never handed out again: the job hangs. The guarded report
   * ignores the late report.
   */
  lemma {:induction false} LateMapReportStalls()
    ensures var s := Snapshot(map["f" := TaskMeta(0, 0, Completed)], map["0" := TaskMeta(0, 0, InProgress)], 0, 1, 1);
      var s1 := Report(s, "f", MapType);
      && CountersMatch(s) && s1.mRemaining == -1
      && (forall pick :: ValidPick(s1, pick) && GetTaskStep(s1, pick, 100).1 == MustWait)
      && Expired(s1.rTasks["0"], 100) && ReschedulePass(s1, 100).0.rTasks["0"].status == InProgress
      && ReportOnce(s, "f", MapType) == s
  {
    var s := Snapshot(map["f" := TaskMeta(0, 0, Completed)], map["0" := TaskMeta(0, 0, InProgress)], 0, 1, 1);
    assert Pending(s.mTasks) == {};
    assert Pending(s.rTasks) == {"0"};
    var s1 := Report(s, "f", MapType);
    assert !HasUnstarted(s1.mTasks);
  }

  /** With the guard, a report keeps the counters matching and never undoes `Done`. */
  lemma {:induction false} ReportOnceKeepsCounters(s: Snapshot, name: string, typ: TaskType)
    requires CountersMatch(s) && name in Table(s, typ)
    ensures CountersMatch(ReportOnce(s, name, typ))
    ensures Done(s) ==> Done(ReportOnce(s, name, typ))
    ensures Remaining(ReportOnce(s, name, typ), typ) >= Remaining(s, typ) - 1
  {
    if Table(s, typ)[name].status != Completed {
      FirstReportKeepsCounters(s, name, typ);
      if Done(s) && typ == ReduceType {
        PendingEmpty(s.rTasks);
        assert false;
      }
    }
  }

  /** The events that change the job state; completion reports are guarded. */
  datatype Event = TaskRequest(pick: string, now: int) | CompletionReport(name: string, taskType: TaskType) | RescheduleTick(now: int)

  predicate Allowed(s: Snapshot, e: Event) {
    match e
    case TaskRequest(pick, _) => ValidPick(s, pick)
    case CompletionReport(name, typ) => name in Table(s, typ)
    case RescheduleTick(_) => true
  }

  function Next(s: Snapshot, e: Event): Snapshot
    requires Allowed(s, e)
  {
    match e
    case TaskRequest(pick, now) => GetTaskStep(s, pick, now).0
    case CompletionReport(name, typ) => ReportOnce(s, name, typ)
    case RescheduleTick(now) => ReschedulePass(s, now).0
  }

  lemma {:induction false} NextKeepsInvariant(s: Snapshot, e: Event)
    requires CountersMatch(s) && Allowed(s, e)
    ensures CountersMatch(Next(s, e))
    ensures Done(s) ==> Done(Next(s, e))
    ensures KeepsCompleted(s.mTasks, Next(s, e).mTasks) && KeepsCompleted(s.rTasks, Next(s, e).rTasks)
    ensures Next(s, e).mRemaining <= s.mRemaining && Next(s, e).rRemaining <= s.rRemaining
  {
    if e.CompletionReport? {
      ReportOnceKeepsCounters(s, e.name, e.taskType);
    }
  }

  /** The distinct names in a list. */
  function Names(files: seq<string>): set<string> {
    set i | 0 <= i < |files| :: files[i]
  }

  lemma {:induction false} DistinctCard(files: seq<string>)
    ensures |Names(files)| <= |files|
    ensures |Names(files)| == |files| <==> Distinct(files)
  {
    if files != [] {
      var n := |files| - 1;
      var init := files[..n];
      DistinctCard(init);
      NamesSnoc(files);
      DistinctSnoc(files);
    }
  }

  /** The names of a list are those of all but its last entry, plus the last. */
  lemma {:induction false} NamesSnoc(files: seq<string>)
    requires files != []
    ensures Names(files) == Names(files[..|files| - 1]) + {files[|files| - 1]}
  {
    var n := |files| - 1;
    var init := files[..n];
    var all, prev := Names(files), Names(init);
    forall x | x in all ensures x in prev + {files[n]} {
      var i :| 0 <= i < |files| && files[i] == x;
      if i < n { assert init[i] == x; }
    }
    forall x | x in prev ensures x in all {
      var i :| 0 <= i < n && init[i] == x;
      assert files[i] == x;
    }
  }

  /** A list is free of repeats when all but its last entry are and the last is new. */
  lemma {:induction false} DistinctSnoc(files: seq<string>)
    requires files != []
    ensures Distinct(files) <==>
      Distinct(files[..|files| - 1]) && files[|files| - 1] !in Names(files[..|files| - 1])
  {
    var n := |files| - 1;
    var init := files[..n];
    if Distinct(files) {
      forall i, j | 0 <= i < j < n ensures init[i] != init[j] {
        assert init[i] == files[i] && init[j] == files[j];
      }
      forall i | 0 <= i < n ensures init[i] != files[n] {
        assert init[i] == files[i];
      }
    }
    if Distinct(init) && files[n] !in Names(init) {
      forall i, j | 0 <= i < j < |files| ensures files[i] != files[j] {
        assert files[i] == init[i];
        if j == n { assert init[i] in Names(init); } else { assert init[i] != init[j]; }
      }
    }
  }

  /** With distinct file names, map task i is named by the i-th file. */
  lemma {:induction false} DistinctFilesNumbered(files: seq<string>, i: int)
    requires Distinct(files) && 0 <= i < |files|
    ensures files[i] in InitialMapTasks(files) && InitialMapTasks(files)[files[i]].number == i
  {
    var t := InitialMapTasks(files);
    assert files[i] in t.Keys;
    var j := t[files[i]].number;
    assert files[j] == files[i];
  }

  /**
   * The counters start out matching exactly when the file names are distinct
   * and nReduce is not negative; a repeated name leaves mRemaining above the
   * number of map tasks, and `NextKeepsMapSurplus` keeps it there.
   */
  lemma {:induction false} InitialCountersMatch(files: seq<string>, nReduce: int)
    ensures CountersMatch(Initial(files, nReduce)) <==> Distinct(files) && nReduce >= 0
    ensures |Pending(Initial(files, nReduce).mTasks)| <= |files|
  {
    var s := Initial(files, nReduce);
    AllPending(s.mTasks);
    AllPending(s.rTasks);
    assert s.mTasks.Keys == Names(files);
    DistinctCard(files);
  }

  /** Every event keeps the difference between `mRemaining` and the number of pending map tasks. */
  lemma {:induction false} NextKeepsMapSurplus(s: Snapshot, e: Event)
    requires Allowed(s, e)
    ensures Next(s, e).mRemaining - |Pending(Next(s, e).mTasks)| == s.mRemaining - |Pending(s.mTasks)|
  {
    if e.CompletionReport? && e.taskType == MapType && s.mTasks[e.name].status != Completed {
      assert e.name in Pending(s.mTasks);
    }
  }

  /** In a table where nothing has started, every task is pending. */
  lemma {:induction false} AllPending(t: TaskTable)
    requires forall k :: k in t ==> t[k].status == Unstarted
    ensures Pending(t) == t.Keys
  {
  }

  /** A run: each state follows from the one before by the event between them. */
  predicate IsRun(states: seq<Snapshot>, events: seq<Event>) {
    && |states| == |events| + 1
    && forall i :: 0 <= i < |events| ==> Allowed(states[i], events[i]) && states[i + 1] == Next(states[i], events[i])
  }

  lemma {:induction false} RunStep(states: seq<Snapshot>, events: seq<Event>, k: nat)
    requires IsRun(states, events) && k < |events|
    ensures Allowed(states[k], events[k]) && states[k + 1] == Next(states[k], events[k])
  {
  }

  /** One step of a run keeps the counters matching and a finished job finished. */
  lemma {:induction false} RunStepKeeps(states: seq<Snapshot>, events: seq<Event>, k: nat)
    requires IsRun(states, events) && k < |events| && CountersMatch(states[k])
    ensures CountersMatch(states[k + 1])
    ensures Done(states[k]) ==> Done(states[k + 1])
  {
    RunStep(states, events, k);
    NextKeepsInvariant(states[k], events[k]);
  }

  /** Along any run that starts with matching counters, the counters keep matching. */
  lemma {:induction false} RunKeepsInvariant(states: seq<Snapshot>, events: seq<Event>, i: nat)
    requires IsRun(states, events) && CountersMatch(states[0])
    requires i < |states|
    ensures CountersMatch(states[i])
  {
    if i > 0 {
      RunKeepsInvariant(states, events, i - 1);
      RunStepKeeps(states, events, i - 1);
    }
  }

  /** Along such a run, once the job is done it stays done. */
  lemma {:induction false} RunStaysDone(states: seq<Snapshot>, events: seq<Event>, i: nat, j: nat)
    requires IsRun(states, events) && CountersMatch(states[0])
    requires i <= j < |states| && Done(states[i])
    ensures Done(states[j])
  {
    if i < j {
      RunStaysDone(states, events, i, j - 1);
      RunKeepsInvariant(states, events, j - 1);
      RunStepKeeps(states, events, j - 1);
    }
  }

  /** Along any run from a job created with distinct files, the counters keep matching. */
  lemma {:induction false} RunKeepsCounters(files: seq<string>, nReduce: int, states: seq<Snapshot>, events: seq<Event>, i: nat)
    requires Distinct(files) && nReduce >= 0
    requires IsRun(states, events) && states[0] == Initial(files, nReduce)
    requires i < |states|
    ensures CountersMatch(states[i])
  {
    InitialCountersMatch(files, nReduce);
    RunKeepsInvariant(states, events, i);
  }

  /**
   * The reduce half of the bookkeeping: `rRemaining` counts the reduce tasks
   * not completed, or is negative when there is nothing left to do (a job
   * created with nReduce < 0 has no reduce task at all).
   */
  predicate ReduceCounterOk(s: Snapshot) {
    s.rRemaining == |Pending(s.rTasks)| || (s.rRemaining < 0 && Pending(s.rTasks) == {})
  }

  /** Every job starts with its reduce counter right, whatever its input files. */
  lemma {:induction false} InitialReduceCounterOk(files: seq<string>, nReduce: int)
    ensures ReduceCounterOk(Initial(files, nReduce))
  {
    var s := Initial(files, nReduce);
    AllPending(s.rTasks);
  }

  /** Every event keeps the reduce counter right and never undoes `Done`. */
  lemma {:induction false} NextKeepsReduceCounter(s: Snapshot, e: Event)
    requires ReduceCounterOk(s) && Allowed(s, e)
    ensures ReduceCounterOk(Next(s, e))
    ensures Done(s) ==> Done(Next(s, e))
  {
    if e.CompletionReport? && e.taskType == ReduceType && s.rTasks[e.name].status != Completed {
      assert e.name in Pending(s.rTasks);
    }
  }

  /** One step of a run keeps the reduce counter right and a finished job finished. */
  lemma {:induction false} RunStepKeepsReduceCounter(states: seq<Snapshot>, events: seq<Event>, k: nat)
    requires IsRun(states, events) && k < |events| && ReduceCounterOk(states[k])
    ensures ReduceCounterOk(states[k + 1])
    ensures Done(states[k]) ==> Done(states[k + 1])
  {
    RunStep(states, events, k);
    NextKeepsReduceCounter(states[k], events[k]);
  }

  /** Along any run that starts with the reduce counter right, it stays right. */
  lemma {:induction false} RunKeepsReduceCounter(states: seq<Snapshot>, events: seq<Event>, i: nat)
    requires IsRun(states, events) && ReduceCounterOk(states[0])
    requires i < |states|
    ensures ReduceCounterOk(states[i])
  {
    if i > 0 {
      RunKeepsReduceCounter(states, events, i - 1);
      RunStepKeepsReduceCounter(states, events, i - 1);
    }
  }

  /** Along such a run, once the job is done it stays done. */
  lemma {:induction false} RunReduceStaysDone(states: seq<Snapshot>, events: seq<Event>, i: nat, j: nat)
    requires IsRun(states, events) && ReduceCounterOk(states[0])
    requires i <= j < |states| && Done(states[i])
    ensures Done(states[j])
  {
    if i < j {
      RunReduceStaysDone(states, events, i, j - 1);
      RunKeepsReduceCounter(states, events, j - 1);
      RunStepKeepsReduceCounter(states, events, j - 1);
    }
  }

  /**
   * Along any run from `MakeCoordinator`, whatever its files (repeated names
   * included) and its nReduce, once `Done` reports true it reports true for ever.
   */
  lemma {:induction false} RunKeepsDone(files: seq<string>, nReduce: int, states: seq<Snapshot>, events: seq<Event>, i: nat, j: nat)
    requires IsRun(states, events) && states[0] == Initial(files, nReduce)
    requires i <= j < |states| && Done(states[i])
    ensures Done(states[j])
  {
    InitialReduceCounterOk(files, nReduce);
    RunReduceStaysDone(states, events, i, j);
  }
}

=== FILE: decimal.dfy ===
/**
 * Decimal formatting of integers, as produced by Go's `strconv.Itoa` and by
 * `fmt.Sprintf("%d", n)`: the shortest string of ASCII digits, with a leading
 * '-' for negative values. Reduce task names, intermediate and output file
 * names and the word-count result are all written this way.
 */
module Decimal {

  predicate IsDigit(c: char) {
    '0' <= c <= '9'
  }

  predicate AllDigits(s: string) {
    forall i :: 0 <= i < |s| ==> IsDigit(s[i])
  }

  function DigitChar(d: nat): (c: char)
    requires d < 10
    ensures IsDigit(c)
    ensures (c as int) - ('0' as int) == d
  {
    (d + '0' as int) as char
  }

  function DigitValue(c: char): (d: nat)
    requires IsDigit(c)
    ensures d < 10 && DigitChar(d) == c
  {
    (c as int) - ('0' as int)
  }

  /** The decimal form of a non-negative number, without leading zeros. */
  function NatToString(n: nat): (s: string)
    ensures |s| >= 1 && AllDigits(s)
    ensures |s| == 1 <==> n < 10
    ensures s[0] == '0' <==> n == 0
  {
    if n < 10 then [DigitChar(n)] else NatToString(n / 10) + [DigitChar(n % 10)]
  }

  /** `fmt.Sprintf("%d", n)` and `strconv.Itoa(n)` for any int. */
  function IntToString(n: int): (s: string)
    ensures |s| >= 1
    ensures n >= 0 ==> AllDigits(s)
    ensures n < 0 ==> s[0] == '-' && AllDigits(s[1..])
  {
    if n < 0 then "-" + NatToString(-n) else NatToString(n)
  }

  /** Reads a string of digits back as a number (most significant digit first). */
  function ParseDigits(s: string): nat
    requires AllDigits(s)
  {
    if s == [] then 0 else ParseDigits(s[..|s| - 1]) * 10 + DigitValue(s[|s| - 1])
  }

  lemma {:induction false} ParseNatToString(n: nat)
    ensures ParseDigits(NatToString(n)) == n
  {
    if n >= 10 {
      var s := NatToString(n);
      assert s[..|s| - 1] == NatToString(n / 10);
      ParseNatToString(n / 10);
    }
  }

  lemma {:induction false} NatToStringInjective(a: nat, b: nat)
    requires NatToString(a) == NatToString(b)
    ensures a == b
  {
    ParseNatToString(a);
    ParseNatToString(b);
  }

  lemma {:induction false} IntToStringInjective(a: int, b: int)
    requires IntToString(a) == IntToString(b)
    ensures a == b
  {
    if a < 0 && b < 0 {
      assert NatToString(-a) == IntToString(a)[1..];
      assert NatToString(-b) == IntToString(b)[1..];
      NatToStringInjective(-a, -b);
    } else if a >= 0 && b >= 0 {
      NatToStringInjective(a, b);
    }
    // Otherwise one side starts with '-' and the other with a digit.
  }
}

=== FILE: hash.dfy ===
/**
 * The key-to-partition rule every worker must compute identically: the 32-bit
 * FNV-1a hash of the key's UTF-8 bytes, masked to 31 bits, then reduced with
 * Go's truncating remainder by the number of reduce tasks.
 */
module Hash {

  /** The UTF-8 encoding of one Unicode scalar value. */
  function EncodeChar(c: char): (b: seq<bv8>)
    ensures 1 <= |b| <= 4
    ensures |b| == 1 <==> c as int < 0x80
    ensures |b| == 2 <==> 0x80 <= c as int < 0x800
    ensures |b| == 4 <==> c as int >= 0x1_0000
  {
    var n := c as int;
    if n < 0x80 then
      [n as bv8]
    else if n < 0x800 then
      [(0xC0 + n / 0x40) as bv8, (0x80 + n % 0x40) as bv8]
    else if n < 0x1_0000 then
      [(0xE0 + n / 0x1000) as bv8, (0x80 + (n / 0x40) % 0x40) as bv8, (0x80 + n % 0x40) as bv8]
    else
      [(0xF0 + n / 0x4_0000) as bv8, (0x80 + (n / 0x1000) % 0x40) as bv8,
       (0x80 + (n / 0x40) % 0x40) as bv8, (0x80 + n % 0x40) as bv8]
  }

  /** Go's `[]byte(s)`: the UTF-8 bytes of a string. */
  function Utf8(s: string): (b: seq<bv8>)
    ensures |s| <= |b| <= 4 * |s|
  {
    if s == [] then [] else EncodeChar(s[0]) + Utf8(s[1..])
  }

  predicate IsAscii(s: string) {
    forall i :: 0 <= i < |s| ==> s[i] as int < 0x80
  }

  /** An ASCII string takes one byte per character. */
  lemma {:induction false} Utf8Ascii(s: string)
    requires IsAscii(s)
    ensures |Utf8(s)| == |s|
  {
    if s != [] {
      Utf8Ascii(s[1..]);
    }
  }

  const OffsetBasis32: bv32 := 2166136261
  const Prime32: bv32 := 16777619

  /** One FNV-1a round: xor the byte in, then multiply by the prime modulo 2^32. */
  function Fnv1aStep(hash: bv32, b: bv8): bv32 {
    (hash ^ (b as bv32)) * Prime32
  }

  /** 32-bit FNV-1a of a byte sequence, one round per byte from the first. */
  function Fnv1a32(data: seq<bv8>): bv32 {
    if data == [] then OffsetBasis32 else Fnv1aStep(Fnv1a32(data[..|data| - 1]), data[|data| - 1])
  }

  /** `fnv.New32a()`, `Write(data)`, `Sum32()`: the hash computed byte by byte. */
  method Sum32a(data: seq<bv8>) returns (hash: bv32)
    ensures hash == Fnv1a32(data)
  {
    hash := OffsetBasis32;
    for i := 0 to |data|
      invariant hash == Fnv1a32(data[..i])
    {
      assert data[..i + 1][..i] == data[..i];
      hash := Fnv1aStep(hash, data[i]);
    }
    assert data[..|data|] == data;
  }

  /** Published FNV-1a test vectors, for "", "a" and "foobar". */
  lemma {:induction false} Fnv1aTestVectors()
    ensures Fnv1a32([]) == 0x811c9dc5
    ensures Fnv1a32([0x61]) == 0xe40c292c
    ensures Fnv1a32([0x66, 0x6f, 0x6f, 0x62, 0x61, 0x72]) == 0xbf9cf968
  {
    var foobar: seq<bv8> := [0x66, 0x6f, 0x6f, 0x62, 0x61, 0x72];
    assert Fnv1a32(foobar[..1]) == 0xe30c2799;
    assert Fnv1a32(foobar[..2]) == 0x6222e842 by { assert foobar[..2][..1] == foobar[..1]; }
    assert Fnv1a32(foobar[..3]) == 0xa9f37ed7 by { assert foobar[..3][..2] == foobar[..2]; }
    assert Fnv1a32(foobar[..4]) == 0x3f5076ef by { assert foobar[..4][..3] == foobar[..3]; }
    assert Fnv1a32(foobar[..5]) == 0x39aaa18a by { assert foobar[..5][..4] == foobar[..4]; }
    assert foobar[..6] == foobar;
  }

  /** Clearing the top bit is the same as reducing modulo 2^31. */
  lemma {:induction false} MaskIsRemainder(x: bv32)
    ensures x & 0x7fff_ffff == x % 0x8000_0000
  {
  }

  /** `ihash`: the FNV-1a hash of the key bytes with the top bit cleared. */
  function Ihash(key: string): (h: int)
    ensures 0 <= h < 0x8000_0000
  {
    var masked: bv31 := (Fnv1a32(Utf8(key)) & 0x7fff_ffff) as bv31;
    masked as int
  }

  function Abs(n: int): nat {
    if n < 0 then -n else n
  }

  /** Go's `%`: the remainder of division truncated toward zero, with the sign of `a`. */
  function GoRem(a: int, b: int): (r: int)
    requires b != 0
    ensures a >= 0 ==> 0 <= r < Abs(b)
    ensures a < 0 ==> 0 <= -r < Abs(b)
    ensures (a - r) % Abs(b) == 0
  {
    var q := if a >= 0 then a / b else -((-a) / b);
    MultipleOfAbs(q, b);
    if a >= 0 then a % b else -((-a) % b)
  }

  /** A multiple of `b` leaves no remainder modulo `|b|`. */
  lemma {:induction false} MultipleOfAbs(q: int, b: int)
    requires b != 0
    ensures (b * q) % Abs(b) == 0
  {
    var m := Abs(b);
    var k := if b > 0 then q else -q;
    assert b * q == m * k;
    var d := (m * k) / m;
    assert m * k == m * d + (m * k) % m;
    assert (m * k) % m == m * (k - d);
    SmallMultipleIsZero(m, k - d);
  }

  /** The only multiple of `m` in [0, m) is 0. */
  lemma {:induction false} SmallMultipleIsZero(m: int, x: int)
    requires m > 0 && 0 <= m * x < m
    ensures x == 0
  {
  }


  /** `ihash(key) % nReduce`, the reduce partition a record goes to. */
  function Partition(key: string, nReduce: int): (p: int)
    requires nReduce != 0
    ensures 0 <= p < Abs(nReduce)
    ensures (Ihash(key) - p) % Abs(nReduce) == 0
    ensures nReduce > 0 ==> p == Ihash(key) % nReduce
  {
    GoRem(Ihash(key), nReduce)
  }

  /** The partitions of "a", "b" and "c" among two reduce tasks. */
  lemma {:induction false} PartitionExamples()
    ensures Ihash("a") == 0x640c292c && Partition("a", 2) == 0
    ensures Ihash("b") == 0x670c2de5 && Partition("b", 2) == 1
    ensures Ihash("c") == 0x660c2c52 && Partition("c", 2) == 0
  {
    assert Utf8("a") == [0x61];
    assert Utf8("b") == [0x62];
    assert Utf8("c") == [0x63];
  }
}

=== FILE: keyvalue.dfy ===
/**
 * The records a job emits and the reduce side's view of them: `KeyValue`, the
 * `ByKey` order, the sort that puts a reduce task's input in that order, and
 * the grouping of a sorted input into one group per distinct key.
 */
module KeyValues {
  import opened Text

  datatype KeyValue = KeyValue(key: string, value: string)

  /** `ByKey.Less`: records compare by key alone. */
  predicate KeyLess(a: KeyValue, b: KeyValue) {
    Less(a.key, b.key)
  }

  /** No record is followed by one with a smaller key. */
  predicate SortedByKey(s: seq<KeyValue>) {
    forall i, j :: 0 <= i < j < |s| ==> !KeyLess(s[j], s[i])
  }

  /** Places `x` before the first record whose key is not smaller than its own. */
  function Insert(x: KeyValue, s: seq<KeyValue>): (r: seq<KeyValue>)
    ensures multiset(r) == multiset(s) + multiset{x}
  {
    if s == [] then [x]
    else if !KeyLess(s[0], x) then [x] + s
    else
      assert s == [s[0]] + s[1..];
      [s[0]] + Insert(x, s[1..])
  }

  /**
   * `sort.Sort(ByKey(data))`. The library sort is not stable; this one is an
   * insertion sort, and only its sortedness and its being a permutation are
   * relied on below.
   */
  function SortByKey(s: seq<KeyValue>): (r: seq<KeyValue>)
    ensures multiset(r) == multiset(s)
  {
    if s == [] then []
    else
      assert s == [s[0]] + s[1..];
      Insert(s[0], SortByKey(s[1..]))
  }

  lemma {:induction false} SortedTail(s: seq<KeyValue>)
    requires SortedByKey(s) && s != []
    ensures SortedByKey(s[1..])
  {
    forall i, j | 0 <= i < j < |s[1..]| ensures !KeyLess(s[1..][j], s[1..][i]) {
      assert s[1..][j] == s[j + 1] && s[1..][i] == s[i + 1];
    }
  }

  /** A record no greater than any record of a sorted sequence can go in front of it. */
  lemma {:induction false} ConsSorted(a: KeyValue, t: seq<KeyValue>)
    requires SortedByKey(t)
    requires forall k :: 0 <= k < |t| ==> !KeyLess(t[k], a)
    ensures SortedByKey([a] + t)
  {
    var r := [a] + t;
    forall i, j | 0 <= i < j < |r| ensures !KeyLess(r[j], r[i]) {
      assert r[j] == t[j - 1];
      if i > 0 {
        assert r[i] == t[i - 1];
      }
    }
  }

  lemma {:induction false} InsertSorted(x: KeyValue, s: seq<KeyValue>)
    requires SortedByKey(s)
    ensures SortedByKey(Insert(x, s))
  {
    if s == [] {
    } else if !KeyLess(s[0], x) {
      forall k | 0 <= k < |s| ensures !KeyLess(s[k], x) {
        if k > 0 {
          NotLessTransitive(x.key, s[0].key, s[k].key);
        }
      }
      ConsSorted(x, s);
    } else {
      SortedTail(s);
      InsertSorted(x, s[1..]);
      var t := Insert(x, s[1..]);
      forall k | 0 <= k < |t| ensures !KeyLess(t[k], s[0]) {
        var y := t[k];
        assert y in multiset(t);
        if y == x {
          LessAsymmetric(s[0].key, x.key);
        } else {
          assert y in multiset(s[1..]);
          var m :| 0 <= m < |s[1..]| && s[1..][m] == y;
          assert s[m + 1] == y;
        }
      }
      ConsSorted(s[0], t);
    }
  }

  /** The sort leaves the records in key order, as a permutation of its input. */
  lemma {:induction false} SortByKeySorted(s: seq<KeyValue>)
    ensures SortedByKey(SortByKey(s))
    ensures multiset(SortByKey(s)) == multiset(s)
  {
    if s != [] {
      SortByKeySorted(s[1..]);
      InsertSorted(s[0], SortByKey(s[1..]));
    }
  }

  // ---------------------------------------------------------------------------
  // Grouping: the reduce loop hands each maximal run of equal keys to reducef.

  datatype Group = Group(key: string, values: seq<string>)

  /** The values of some records, in order. */
  function Values(s: seq<KeyValue>): (vs: seq<string>)
    ensures |vs| == |s|
    ensures forall i :: 0 <= i < |s| ==> vs[i] == s[i].value
  {
    if s == [] then [] else Values(s[..|s| - 1]) + [s[|s| - 1].value]
  }

  /** The length of the longest prefix of `s` whose records all have key `key`. */
  function RunLength(s: seq<KeyValue>, key: string): (n: nat)
    ensures n <= |s|
    ensures forall i :: 0 <= i < n ==> s[i].key == key
    ensures n < |s| ==> s[n].key != key
  {
    if s == [] || s[0].key != key then 0 else 1 + RunLength(s[1..], key)
  }

  /** One group per maximal run of equal keys, in order. */
  function GroupsOf(s: seq<KeyValue>): (gs: seq<Group>)
    ensures |gs| <= |s|
    ensures s != [] ==> gs != [] && gs[0].key == s[0].key
    decreases |s|
  {
    if s == [] then []
    else
      var n := RunLength(s, s[0].key);
      [Group(s[0].key, Values(s[..n]))] + GroupsOf(s[n..])
  }

  /** The values of all groups, one group after the other. */
  function AllValues(gs: seq<Group>): seq<string> {
    if gs == [] then [] else gs[0].values + AllValues(gs[1..])
  }

  /** The set of keys of some records. */
  function KeysOf(s: seq<KeyValue>): set<string> {
    if s == [] then {} else {s[0].key} + KeysOf(s[1..])
  }

  function GroupKeys(gs: seq<Group>): set<string> {
    if gs == [] then {} else {gs[0].key} + GroupKeys(gs[1..])
  }

  /** Every group's key is among the group keys. */
  lemma {:induction false} GroupKeysMembers(gs: seq<Group>, a: nat)
    requires a < |gs|
    ensures gs[a].key in GroupKeys(gs)
  {
    if a > 0 {
      GroupKeysMembers(gs[1..], a - 1);
    }
  }

  /** The values of the records with key `key`, in order. */
  function ValuesWithKey(s: seq<KeyValue>, key: string): seq<string> {
    if s == [] then []
    else (if s[0].key == key then [s[0].value] else []) + ValuesWithKey(s[1..], key)
  }

  lemma {:induction false} ValuesWithKeyAppend(a: seq<KeyValue>, b: seq<KeyValue>, key: string)
    ensures ValuesWithKey(a + b, key) == ValuesWithKey(a, key) + ValuesWithKey(b, key)
  {
    if a == [] {
      assert a + b == b;
    } else {
      assert (a + b)[1..] == a[1..] + b;
      ValuesWithKeyAppend(a[1..], b, key);
    }
  }

  lemma {:induction false} ValuesWithKeyAbsent(s: seq<KeyValue>, key: string)
    requires forall i :: 0 <= i < |s| ==> s[i].key != key
    ensures ValuesWithKey(s, key) == []
  {
    if s != [] {
      ValuesWithKeyAbsent(s[1..], key);
    }
  }

  lemma {:induction false} ValuesWithKeyAll(s: seq<KeyValue>, key: string)
    requires forall i :: 0 <= i < |s| ==> s[i].key == key
    ensures ValuesWithKey(s, key) == Values(s)
  {
    if s != [] {
      ValuesWithKeyAll(s[1..], key);
      assert Values(s) == [s[0].value] + Values(s[1..]);
    }
  }

  lemma {:induction false} ValuesLast(s: seq<KeyValue>)
    requires s != []
    ensures Values(s) == Values(s[..|s| - 1]) + [s[|s| - 1].value]
  {
  }

  lemma {:induction false} ConcatAssociative<T>(a: seq<T>, b: seq<T>, c: seq<T>)
    ensures (a + b) + c == a + (b + c)
  {
  }

  /** Cutting the first run off `s` leaves the values of `s` split in two. */
  lemma {:induction false} ValuesSplit(s: seq<KeyValue>, n: nat)
    requires n <= |s|
    ensures Values(s) == Values(s[..n]) + Values(s[n..])
  {
    if n == |s| {
      assert s[..n] == s && s[n..] == [];
    } else {
      var init, t, v := s[..|s| - 1], s[n..], s[|s| - 1].value;
      ValuesSplit(init, n);
      ValuesLast(s);
      ValuesLast(t);
      assert t[..|t| - 1] == init[n..] && t[|t| - 1].value == v;
      assert init[..n] == s[..n];
      ConcatAssociative(Values(s[..n]), Values(init[n..]), [v]);
    }
  }

  /** The groups hold every value of the input, in input order; their sizes sum to its length. */
  lemma {:induction false} GroupsCoverValues(s: seq<KeyValue>)
    ensures AllValues(GroupsOf(s)) == Values(s)
    ensures |AllValues(GroupsOf(s))| == |s|
  {
    if s != [] {
      var n := RunLength(s, s[0].key);
      GroupsCoverValues(s[n..]);
      ValuesSplit(s, n);
    }
  }

  /** There is a group for every key of the input, and for no other key. */
  lemma {:induction false} GroupKeysAreKeys(s: seq<KeyValue>)
    ensures GroupKeys(GroupsOf(s)) == KeysOf(s)
    decreases |s|
  {
    if s != [] {
      var n := RunLength(s, s[0].key);
      GroupKeysAreKeys(s[n..]);
      RunKeys(s, n);
    }
  }

  /** A run of `key` followed by the rest has the keys of the rest plus `key`. */
  lemma {:induction false} RunKeys(s: seq<KeyValue>, n: nat)
    requires 1 <= n <= |s|
    requires forall i :: 0 <= i < n ==> s[i].key == s[0].key
    ensures KeysOf(s) == {s[0].key} + KeysOf(s[n..])
  {
    if n > 1 {
      RunKeys(s[1..], n - 1);
      assert s[1..][n - 1..] == s[n..];
    }
  }

  /** In a sorted input, every key after the first run is strictly greater than the first key. */
  lemma {:induction false} AfterRunGreater(s: seq<KeyValue>, n: nat)
    requires SortedByKey(s) && 1 <= n < |s|
    requires s[n].key != s[0].key
    ensures forall i :: n <= i < |s| ==> Less(s[0].key, s[i].key)
  {
    assert !KeyLess(s[n], s[0]);
    LessTotal(s[0].key, s[n].key);
    forall i | n < i < |s| ensures Less(s[0].key, s[i].key) {
      assert !KeyLess(s[i], s[n]);
      LessTotal(s[n].key, s[i].key);
      if s[n].key != s[i].key {
        LessTransitive(s[0].key, s[n].key, s[i].key);
      }
    }
  }

  lemma {:induction false} SortedSuffix(s: seq<KeyValue>, n: nat)
    requires SortedByKey(s) && n <= |s|
    ensures SortedByKey(s[n..])
  {
    forall i, j | 0 <= i < j < |s[n..]| ensures !KeyLess(s[n..][j], s[n..][i]) {
      assert s[n..][j] == s[n + j] && s[n..][i] == s[n + i];
    }
  }

  /** The groups of a non-empty input: its first run, then the groups of the rest. */
  lemma {:induction false} GroupsUnfold(s: seq<KeyValue>)
    requires s != []
    ensures var n := RunLength(s, s[0].key);
      1 <= n &&
      |GroupsOf(s)| == 1 + |GroupsOf(s[n..])| &&
      GroupsOf(s)[0] == Group(s[0].key, Values(s[..n])) &&
      forall a :: 1 <= a < |GroupsOf(s)| ==> GroupsOf(s)[a] == GroupsOf(s[n..])[a - 1]
  {
    var n := RunLength(s, s[0].key);
    assert GroupsOf(s) == [Group(s[0].key, Values(s[..n]))] + GroupsOf(s[n..]);
  }

  /** Every group key of a sorted input exceeds any bound all its keys exceed. */
  lemma {:induction false} GroupKeysAbove(s: seq<KeyValue>, low: string)
    requires SortedByKey(s)
    requires forall i :: 0 <= i < |s| ==> Less(low, s[i].key)
    ensures forall a :: 0 <= a < |GroupsOf(s)| ==> Less(low, GroupsOf(s)[a].key)
    decreases |s|
  {
    if s != [] {
      var n := RunLength(s, s[0].key);
      GroupsUnfold(s);
      SortedSuffix(s, n);
      forall i | 0 <= i < |s[n..]| ensures Less(low, s[n..][i].key) {
        assert s[n..][i] == s[n + i];
      }
      GroupKeysAbove(s[n..], low);
    }
  }

  /** On sorted input the emitted keys are strictly increasing: one group per distinct key. */
  lemma {:induction false} SortedGroupKeysIncrease(s: seq<KeyValue>)
    requires SortedByKey(s)
    ensures forall a, b :: 0 <= a < b < |GroupsOf(s)| ==> Less(GroupsOf(s)[a].key, GroupsOf(s)[b].key)
    decreases |s|
  {
    if s != [] {
      var gs := GroupsOf(s);
      var n := RunLength(s, s[0].key);
      GroupsUnfold(s);
      SortedSuffix(s, n);
      SortedGroupKeysIncrease(s[n..]);
      if n < |s| {
        AfterRunGreater(s, n);
        GroupKeysAbove(s[n..], s[0].key);
      }
      forall a, b | 0 <= a < b < |gs| ensures Less(gs[a].key, gs[b].key) {
        if a == 0 {
          assert gs[b] == GroupsOf(s[n..])[b - 1];
        } else {
          assert gs[a] == GroupsOf(s[n..])[a - 1] && gs[b] == GroupsOf(s[n..])[b - 1];
        }
      }
    }
  }

  /** The values under the first key of a sorted input are exactly those of its first run. */
  lemma {:induction false} FirstRunValues(s: seq<KeyValue>)
    requires SortedByKey(s) && s != []
    ensures ValuesWithKey(s, s[0].key) == Values(s[..RunLength(s, s[0].key)])
  {
    var n := RunLength(s, s[0].key);
    assert s == s[..n] + s[n..];
    ValuesWithKeyAppend(s[..n], s[n..], s[0].key);
    ValuesWithKeyAll(s[..n], s[0].key);
    if n < |s| {
      AfterRunGreater(s, n);
      forall i | 0 <= i < |s[n..]| ensures s[n..][i].key != s[0].key {
        assert s[n..][i] == s[n + i];
        LessIrreflexive(s[0].key);
      }
    }
    ValuesWithKeyAbsent(s[n..], s[0].key);
  }

  /** A key greater than the first one has no values in the first run. */
  lemma {:induction false} SkipFirstRun(s: seq<KeyValue>, key: string)
    requires s != [] && Less(s[0].key, key)
    ensures ValuesWithKey(s, key) == ValuesWithKey(s[RunLength(s, s[0].key)..], key)
  {
    var n := RunLength(s, s[0].key);
    assert s == s[..n] + s[n..];
    ValuesWithKeyAppend(s[..n], s[n..], key);
    LessIrreflexive(s[0].key);
    ValuesWithKeyAbsent(s[..n], key);
  }

  /** On sorted input each group holds every value recorded under its key, in input order. */
  lemma {:induction false} SortedGroupValues(s: seq<KeyValue>)
    requires SortedByKey(s)
    ensures forall a :: 0 <= a < |GroupsOf(s)| ==> GroupsOf(s)[a].values == ValuesWithKey(s, GroupsOf(s)[a].key)
    decreases |s|, 1
  {
    forall a | 0 <= a < |GroupsOf(s)| ensures GroupsOf(s)[a].values == ValuesWithKey(s, GroupsOf(s)[a].key) {
      if a == 0 {
        GroupsUnfold(s);
        FirstRunValues(s);
      } else {
        LaterGroupValues(s, a);
      }
    }
  }

  /** A group after the first run holds the values of its key in the rest, which are all of them. */
  lemma {:induction false} LaterGroupValues(s: seq<KeyValue>, a: nat)
    requires SortedByKey(s) && 1 <= a < |GroupsOf(s)|
    ensures GroupsOf(s)[a].values == ValuesWithKey(s, GroupsOf(s)[a].key)
    decreases |s|, 0
  {
    var n := RunLength(s, s[0].key);
    var rest := GroupsOf(s[n..]);
    GroupsUnfold(s);
    assert GroupsOf(s)[a] == rest[a - 1];
    assert n < |s|;
    SortedSuffix(s, n);
    SortedGroupValues(s[n..]);
    AfterRunGreater(s, n);
    GroupKeysAbove(s[n..], s[0].key);
    SkipFirstRun(s, rest[a - 1].key);
  }

  /**
   * Reordering the records does not change which values a key has, only their
   * order: whatever order an unstable sort leaves equal keys in, each group
   * receives the same values.
   */
  lemma {:induction false} ValuesWithKeyPermutation(s: seq<KeyValue>, t: seq<KeyValue>, key: string)
    requires multiset(s) == multiset(t)
    ensures multiset(ValuesWithKey(s, key)) == multiset(ValuesWithKey(t, key))
    decreases |s|
  {
    if s == [] {
      assert |t| == |multiset(t)| == 0;
    } else {
      var x := s[0];
      assert x in multiset(t) by { assert x in multiset(s); }
      var i :| 0 <= i < |t| && t[i] == x;
      var rest := t[..i] + t[i + 1..];
      RemoveAt(t, i);
      assert s == [x] + s[1..];
      assert multiset(rest) == multiset(s[1..]);
      ValuesWithKeyPermutation(s[1..], rest, key);
      ValuesWithKeyRemoveAt(t, i, key);
    }
  }

  lemma {:induction false} RemoveAt(t: seq<KeyValue>, i: nat)
    requires i < |t|
    ensures multiset(t[..i] + t[i + 1..]) == multiset(t) - multiset{t[i]}
  {
    assert t == t[..i] + [t[i]] + t[i + 1..];
  }

  /** Taking one record out of the middle takes its value, if it has the key, out of the key's values. */
  lemma {:induction false} ValuesWithKeyRemoveAt(t: seq<KeyValue>, i: nat, key: string)
    requires i < |t|
    ensures multiset(ValuesWithKey(t, key)) ==
      multiset(ValuesWithKey(t[..i] + t[i + 1..], key)) + (if t[i].key == key then multiset{t[i].value} else multiset{})
  {
    var x := t[i];
    assert t == t[..i] + ([x] + t[i + 1..]);
    ValuesWithKeyAppend(t[..i], [x] + t[i + 1..], key);
    ValuesWithKeyAppend(t[..i], t[i + 1..], key);
    assert ([x] + t[i + 1..])[1..] == t[i + 1..];
  }

  /** A prefix of records with key `key` that cannot be extended is the run of `key`. */
  lemma {:induction false} RunLengthIs(s: seq<KeyValue>, key: string, n: nat)
    requires n <= |s|
    requires forall i :: 0 <= i < n ==> s[i].key == key
    requires n < |s| ==> s[n].key != key
    ensures RunLength(s, key) == n
  {
    if n > 0 {
      RunLengthIs(s[1..], key, n - 1);
    }
  }

  lemma {:induction false} KeysOfMembers(s: seq<KeyValue>, key: string)
    ensures key in KeysOf(s) <==> exists i :: 0 <= i < |s| && s[i].key == key
  {
    if s != [] {
      KeysOfMembers(s[1..], key);
      if exists i :: 0 <= i < |s| && s[i].key == key {
        var i :| 0 <= i < |s| && s[i].key == key;
        if i > 0 {
          assert s[1..][i - 1] == s[i];
        }
      }
      if exists i :: 0 <= i < |s[1..]| && s[1..][i].key == key {
        var i :| 0 <= i < |s[1..]| && s[1..][i].key == key;
        assert s[i + 1] == s[1..][i];
      }
    }
  }

  /** Reordering the records keeps their set of keys. */
  lemma {:induction false} KeysOfPermutation(s: seq<KeyValue>, t: seq<KeyValue>)
    requires multiset(s) == multiset(t)
    ensures KeysOf(s) == KeysOf(t)
  {
    forall key | key in KeysOf(s) ensures key in KeysOf(t) {
      KeysOfMembers(s, key);
      var i :| 0 <= i < |s| && s[i].key == key;
      assert s[i] in multiset(t);
      var j :| 0 <= j < |t| && t[j] == s[i];
      KeysOfMembers(t, key);
    }
    forall key | key in KeysOf(t) ensures key in KeysOf(s) {
      KeysOfMembers(t, key);
      var j :| 0 <= j < |t| && t[j].key == key;
      assert t[j] in multiset(s);
      var i :| 0 <= i < |s| && s[i] == t[j];
      KeysOfMembers(s, key);
    }
  }

  /**
   * What the reduce loop sees after `sort.Sort`: one group per distinct key of
   * the input, keys strictly increasing, and each group holding the values
   * recorded under its key, up to order.
   */
  lemma {:induction false} GroupsOfSorted(data: seq<KeyValue>)
    ensures var gs := GroupsOf(SortByKey(data));
      (forall a, b :: 0 <= a < b < |gs| ==> Less(gs[a].key, gs[b].key)) &&
      GroupKeys(gs) == KeysOf(data) &&
      forall a :: 0 <= a < |gs| ==> multiset(gs[a].values) == multiset(ValuesWithKey(data, gs[a].key))
  {
    var sorted := SortByKey(data);
    SortByKeySorted(data);
    SortedGroupKeysIncrease(sorted);
    SortedGroupValues(sorted);
    GroupKeysAreKeys(sorted);
    KeysOfPermutation(sorted, data);
    var gs := GroupsOf(sorted);
    forall a | 0 <= a < |gs| ensures multiset(gs[a].values) == multiset(ValuesWithKey(data, gs[a].key)) {
      ValuesWithKeyPermutation(sorted, data, gs[a].key);
    }
  }
}

=== FILE: rpc.dfy ===
/**
 * The records exchanged between workers and the coordinator. The transport
 * itself (net/rpc over HTTP on a per-user unix socket) is not part of this
 * model; only the shape of the messages is.
 */
module Rpc {

  /** The wire strings "map" and "reduce". */
  datatype TaskType = MapType | ReduceType

  /**
   * The answer to a task request. `nReduce` is filled in for map tasks only;
   * a reduce-task reply leaves it at Go's zero value.
   */
  datatype GetTaskReply = GetTaskReply(name: string, number: int, nReduce: int, taskType: TaskType)
}

=== FILE: text.dfy ===
/**
 * String operations the worker relies on: Go's `strings.Split` on a one-character
 * separator, the newline-terminated line format of intermediate files, and the
 * order Go's `<` puts strings in.
 */
module Text {

  /** `strings.Split(s, string(sep))`: the pieces between separators; at least one. */
  function Split(s: string, sep: char): (pieces: seq<string>)
    ensures |pieces| >= 1
    ensures forall i :: 0 <= i < |pieces| ==> sep !in pieces[i]
  {
    if s == [] then [""]
    else
      var rest := Split(s[1..], sep);
      if s[0] == sep then [""] + rest
      else [[s[0]] + rest[0]] + rest[1..]
  }

  /** The text of lines each followed by "\n", as `fmt.Fprintf(f, "%s\n", line)` writes them. */
  function TerminateLines(lines: seq<string>): (text: string)
    ensures |text| >= |lines|
  {
    if lines == [] then "" else lines[0] + "\n" + TerminateLines(lines[1..])
  }

  /** The lines read back from a file: split on "\n" and drop the last piece. */
  function Lines(text: string): (lines: seq<string>)
    ensures forall i :: 0 <= i < |lines| ==> '\n' !in lines[i]
  {
    var pieces := Split(text, '\n');
    pieces[..|pieces| - 1]
  }

  predicate NoNewlines(lines: seq<string>) {
    forall i :: 0 <= i < |lines| ==> '\n' !in lines[i]
  }

  /** Splitting a line that ends in a separator yields the line, then the pieces of the rest. */
  lemma {:induction false} SplitAfterLine(line: string, sep: char, rest: string)
    requires sep !in line
    ensures Split(line + [sep] + rest, sep) == [line] + Split(rest, sep)
  {
    if line != [] {
      assert (line + [sep] + rest)[1..] == line[1..] + [sep] + rest;
      SplitAfterLine(line[1..], sep, rest);
      assert [line[0]] + line[1..] == line;
    } else {
      assert line + [sep] + rest == [sep] + rest;
    }
  }

  lemma {:induction false} NoNewlinesTail(lines: seq<string>)
    requires NoNewlines(lines) && lines != []
    ensures '\n' !in lines[0] && NoNewlines(lines[1..])
  {
    forall i | 0 <= i < |lines[1..]| ensures '\n' !in lines[1..][i] {
      assert lines[1..][i] == lines[i + 1];
    }
  }

  lemma {:induction false} ConsAppend<T>(xs: seq<T>, ys: seq<T>)
    requires xs != []
    ensures [xs[0]] + (xs[1..] + ys) == xs + ys
  {
    assert xs == [xs[0]] + xs[1..];
  }

  lemma {:induction false} SplitTerminated(lines: seq<string>, tail: string)
    requires NoNewlines(lines)
    ensures Split(TerminateLines(lines) + tail, '\n') == lines + Split(tail, '\n')
  {
    if lines != [] {
      var rest := TerminateLines(lines[1..]) + tail;
      assert TerminateLines(lines) + tail == lines[0] + ['\n'] + rest;
      NoNewlinesTail(lines);
      SplitAfterLine(lines[0], '\n', rest);
      SplitTerminated(lines[1..], tail);
      ConsAppend(lines, Split(tail, '\n'));
    } else {
      assert TerminateLines(lines) + tail == tail;
    }
  }

  /** Lines written and read back are the same lines. */
  lemma {:induction false} LinesRoundTrip(lines: seq<string>)
    requires NoNewlines(lines)
    ensures Lines(TerminateLines(lines)) == lines
  {
    SplitTerminated(lines, "");
    assert TerminateLines(lines) + "" == TerminateLines(lines);
  }

  /** A last line without its newline is lost. */
  lemma {:induction false} UnterminatedTailDropped(lines: seq<string>, tail: string)
    requires NoNewlines(lines) && '\n' !in tail
    ensures Lines(TerminateLines(lines) + tail) == lines
  {
    SplitTerminated(lines, tail);
    NoSeparator(tail, '\n');
  }

  lemma {:induction false} NoSeparator(s: string, sep: char)
    requires sep !in s
    ensures Split(s, sep) == [s]
  {
    if s != [] {
      NoSeparator(s[1..], sep);
      assert [s[0]] + s[1..] == s;
    }
  }

  /** Empty content holds no lines. */
  lemma {:induction false} EmptyHasNoLines()
    ensures Lines("") == []
  {
  }

  // ---------------------------------------------------------------------------
  // Go's string order: lexicographic on bytes. For UTF-8 text this is the
  // lexicographic order of code points, which is what is written here.

  predicate Less(a: string, b: string) {
    if a == [] then b != []
    else if b == [] then false
    else a[0] < b[0] || (a[0] == b[0] && Less(a[1..], b[1..]))
  }

  lemma {:induction false} LessIrreflexive(a: string)
    ensures !Less(a, a)
  {
    if a != [] {
      LessIrreflexive(a[1..]);
    }
  }

  lemma {:induction false} LessTransitive(a: string, b: string, c: string)
    requires Less(a, b) && Less(b, c)
    ensures Less(a, c)
  {
    if a != [] && b != [] && c != [] && a[0] == b[0] == c[0] {
      LessTransitive(a[1..], b[1..], c[1..]);
    }
  }

  lemma {:induction false} LessTotal(a: string, b: string)
    ensures a == b || Less(a, b) || Less(b, a)
  {
    if a != [] && b != [] && a[0] == b[0] {
      LessTotal(a[1..], b[1..]);
      if a[1..] == b[1..] {
        assert a == [a[0]] + a[1..] && b == [b[0]] + b[1..];
      }
    }
  }

  lemma {:induction false} LessAsymmetric(a: string, b: string)
    requires Less(a, b)
    ensures !Less(b, a)
  {
    if a != [] && b != [] && a[0] == b[0] {
      LessAsymmetric(a[1..], b[1..]);
    }
  }

  /** "At most" is transitive: the order sort.Sort leaves between neighbours chains. */
  lemma {:induction false} NotLessTransitive(a: string, b: string, c: string)
    requires !Less(b, a) && !Less(c, b)
    ensures !Less(c, a)
  {
    if a != b && b != c {
      LessTotal(a, b);
      LessTotal(b, c);
      LessTransitive(a, b, c);
      LessAsymmetric(a, c);
    }
  }
}

=== FILE: wordcount.dfy ===
/**
 * The word-count job plugged into the workers: `Map` cuts a file's contents
 * into words, the maximal runs of letters, and emits each word with the value
 * "1"; `Reduce` answers the number of values collected for a word, in decimal.
 * Which characters are letters (`unicode.IsLetter`) is a parameter `isLetter`.
 */
module WordCount {
  import opened Decimal
  import opened KeyValues

  /** The length of the longest prefix of `s` made of letters. */
  function LetterRun(s: string, isLetter: char -> bool): (n: nat)
    ensures n <= |s|
    ensures forall i :: 0 <= i < n ==> isLetter(s[i])
    ensures n < |s| ==> !isLetter(s[n])
  {
    if s == [] || !isLetter(s[0]) then 0 else 1 + LetterRun(s[1..], isLetter)
  }

  predicate AllLetters(w: string, isLetter: char -> bool) {
    forall i :: 0 <= i < |w| ==> isLetter(w[i])
  }

  /**
   * `strings.FieldsFunc(s, func(r) { return !isLetter(r) })`: the maximal runs
   * of letters of `s`, in order; every one is a non-empty word of letters.
   */
  function Fields(s: string, isLetter: char -> bool): (words: seq<string>)
    ensures forall k :: 0 <= k < |words| ==> words[k] != [] && AllLetters(words[k], isLetter)
    decreases |s|
  {
    if s == [] then []
    else if !isLetter(s[0]) then Fields(s[1..], isLetter)
    else
      var n := LetterRun(s, isLetter);
      [s[..n]] + Fields(s[n..], isLetter)
  }

  /** The records emitted for some words: each word with the value "1". */
  function Ones(words: seq<string>): (kva: seq<KeyValue>)
    ensures |kva| == |words|
    ensures forall k :: 0 <= k < |kva| ==> kva[k].key == words[k] && kva[k].value == "1"
  {
    seq(|words|, k requires 0 <= k < |words| => KeyValue(words[k], "1"))
  }

  /** What `Map(filename, contents)` returns. */
  function MapOutput(contents: string, isLetter: char -> bool): seq<KeyValue> {
    Ones(Fields(contents, isLetter))
  }

  /** `Map`: the loop appending `KeyValue{w, "1"}` for each word of the contents. */
  method Map(filename: string, contents: string, isLetter: char -> bool) returns (kva: seq<KeyValue>)
    ensures kva == MapOutput(contents, isLetter)
    ensures forall k :: 0 <= k < |kva| ==> kva[k].key != [] && AllLetters(kva[k].key, isLetter) && kva[k].value == "1"
  {
    var words := Fields(contents, isLetter);
    kva := [];
    for i := 0 to |words|
      invariant kva == Ones(words[..i])
    {
      kva := kva + [KeyValue(words[i], "1")];
    }
    assert words[..|words|] == words;
  }

  /** `Reduce`: `strconv.Itoa(len(values))`, which reads back as the number of values. */
  function Reduce(key: string, values: seq<string>): (r: string)
    ensures AllDigits(r) && ParseDigits(r) == |values|
  {
    ParseNatToString(|values|);
    NatToString(|values|)
  }

  // ---------------------------------------------------------------------------
  // The words cover exactly the letters of the contents.

  /** The letters of `s`, in order: `s` with every other character removed. */
  function Letters(s: string, isLetter: char -> bool): string {
    if s == [] then [] else (if isLetter(s[0]) then [s[0]] else []) + Letters(s[1..], isLetter)
  }

  function Concat(words: seq<string>): string {
    if words == [] then [] else words[0] + Concat(words[1..])
  }

  lemma {:induction false} LettersOfWord(w: string, rest: string, isLetter: char -> bool)
    requires AllLetters(w, isLetter)
    ensures Letters(w + rest, isLetter) == w + Letters(rest, isLetter)
  {
    if w != [] {
      assert (w + rest)[1..] == w[1..] + rest;
      LettersOfWord(w[1..], rest, isLetter);
      assert [w[0]] + w[1..] == w;
    } else {
      assert w + rest == rest;
    }
  }

  /** Joining the words gives back the contents without their non-letters. */
  lemma {:induction false} FieldsConcat(s: string, isLetter: char -> bool)
    ensures Concat(Fields(s, isLetter)) == Letters(s, isLetter)
    decreases |s|
  {
    if s != [] {
      if !isLetter(s[0]) {
        FieldsConcat(s[1..], isLetter);
      } else {
        var n := LetterRun(s, isLetter);
        FieldsConcat(s[n..], isLetter);
        assert s == s[..n] + s[n..];
        LettersOfWord(s[..n], s[n..], isLetter);
        assert Fields(s, isLetter)[1..] == Fields(s[n..], isLetter);
      }
    }
  }

  // ---------------------------------------------------------------------------
  // The words are the maximal runs: one word per position where a run of
  // letters starts.

  /**
   * The number of positions of `s` holding a letter that does not follow a
   * letter, when the character before `s` was a letter exactly if `afterLetter`.
   */
  function RunStarts(s: string, afterLetter: bool, isLetter: char -> bool): nat {
    if s == [] then 0
    else (if isLetter(s[0]) && !afterLetter then 1 else 0) + RunStarts(s[1..], isLetter(s[0]), isLetter)
  }

  lemma {:induction false} RunStartsInsideRun(s: string, k: nat, isLetter: char -> bool)
    requires k <= |s| && forall i :: 0 <= i < k ==> isLetter(s[i])
    ensures RunStarts(s, true, isLetter) == RunStarts(s[k..], true, isLetter)
  {
    if k > 0 {
      RunStartsInsideRun(s[1..], k - 1, isLetter);
      assert s[1..][k - 1..] == s[k..];
    }
  }

  /** As many words as runs of letters start in the contents. */
  lemma {:induction false} FieldsCount(s: string, isLetter: char -> bool)
    ensures |Fields(s, isLetter)| == RunStarts(s, false, isLetter)
    decreases |s|
  {
    if s != [] {
      if !isLetter(s[0]) {
        FieldsCount(s[1..], isLetter);
      } else {
        var n := LetterRun(s, isLetter);
        RunStartsInsideRun(s[1..], n - 1, isLetter);
        assert s[1..][n - 1..] == s[n..];
        FieldsCount(s[n..], isLetter);
        var t := s[n..];
        if t != [] {
          assert !isLetter(t[0]);
          assert RunStarts(t, true, isLetter) == RunStarts(t, false, isLetter);
        }
      }
    }
  }

  // ---------------------------------------------------------------------------
  // Counting: each word's count is the number of times it occurs.

  lemma {:induction false} OnesWithKey(words: seq<string>, w: string)
    ensures |ValuesWithKey(Ones(words), w)| == multiset(words)[w]
  {
    if words != [] {
      OnesWithKey(words[1..], w);
      assert Ones(words)[1..] == Ones(words[1..]);
      assert words == [words[0]] + words[1..];
    }
  }

  /** After the shuffle and sort, every word of the inputs gets exactly one group. */
  lemma {:induction false} WordGroups(words: seq<string>)
    ensures GroupKeys(GroupsOf(SortByKey(Ones(words)))) == set k | 0 <= k < |words| :: words[k]
  {
    GroupsOfSorted(Ones(words));
    OnesKeys(words);
  }

  /**
   * ... holding one value per occurrence of the word in the inputs, so that
   * `Reduce` writes the word's number of occurrences.
   */
  lemma {:induction false} WordCounts(words: seq<string>)
    ensures var gs := GroupsOf(SortByKey(Ones(words)));
      forall a :: 0 <= a < |gs| ==> |gs[a].values| == multiset(words)[gs[a].key]
  {
    var data := Ones(words);
    GroupsOfSorted(data);
    var gs := GroupsOf(SortByKey(data));
    forall a | 0 <= a < |gs| ensures |gs[a].values| == multiset(words)[gs[a].key] {
      OnesWithKey(words, gs[a].key);
      assert |gs[a].values| == |multiset(gs[a].values)|;
    }
  }

  lemma {:induction false} OnesKeys(words: seq<string>)
    ensures KeysOf(Ones(words)) == set k | 0 <= k < |words| :: words[k]
  {
    if words != [] {
      OnesKeys(words[1..]);
      assert Ones(words)[1..] == Ones(words[1..]);
      var all := set k | 0 <= k < |words| :: words[k];
      var rest := set k | 0 <= k < |words[1..]| :: words[1..][k];
      assert all == {words[0]} + rest by {
        forall x | x in all ensures x in {words[0]} + rest {
          var k :| 0 <= k < |words| && words[k] == x;
          if k > 0 {
            assert words[1..][k - 1] == x;
          }
        }
        forall x | x in rest ensures x in all {
          var k :| 0 <= k < |words[1..]| && words[1..][k] == x;
          assert words[k + 1] == x;
        }
      }
    }
  }

  // ---------------------------------------------------------------------------
  // Worked examples.

  lemma {:induction false} LetterRunOfWord(w: string, rest: string, isLetter: char -> bool)
    requires AllLetters(w, isLetter) && (rest == [] || !isLetter(rest[0]))
    ensures LetterRun(w + rest, isLetter) == |w|
  {
    if w != [] {
      assert (w + rest)[1..] == w[1..] + rest;
      LetterRunOfWord(w[1..], rest, isLetter);
    } else {
      assert w + rest == rest;
    }
  }

  /** A word followed by a non-letter, or by nothing, is the next field. */
  lemma {:induction false} FieldsOfWord(w: string, rest: string, isLetter: char -> bool)
    requires w != [] && AllLetters(w, isLetter) && (rest == [] || !isLetter(rest[0]))
    ensures Fields(w + rest, isLetter) == [w] + Fields(rest, isLetter)
  {
    LetterRunOfWord(w, rest, isLetter);
    assert (w + rest)[..|w|] == w && (w + rest)[|w|..] == rest;
  }

  /** A leading non-letter is dropped. */
  lemma {:induction false} FieldsSkip(c: char, rest: string, isLetter: char -> bool)
    requires !isLetter(c)
    ensures Fields([c] + rest, isLetter) == Fields(rest, isLetter)
  {
    assert ([c] + rest)[1..] == rest;
  }

  predicate PlainLetters(isLetter: char -> bool) {
    isLetter('a') && isLetter('b') && isLetter('c') && !isLetter(' ')
  }

  /** The words of "a b a" and of "b c". */
  lemma {:induction false} ExampleFields(isLetter: char -> bool)
    requires PlainLetters(isLetter)
    ensures Fields("a b a", isLetter) == ["a", "b", "a"]
    ensures Fields("b c", isLetter) == ["b", "c"]
  {
    FieldsABA(isLetter);
    FieldsBC(isLetter);
  }

  lemma {:induction false} FieldsABA(isLetter: char -> bool)
    requires PlainLetters(isLetter)
    ensures Fields("a b a", isLetter) == ["a", "b", "a"]
  {
    FieldsOfWord("a", "", isLetter);
    assert "a" + "" == "a";
    FieldsSkip(' ', "a", isLetter);
    assert [' '] + "a" == " a";
    FieldsOfWord("b", " a", isLetter);
    assert "b" + " a" == "b a";
    FieldsSkip(' ', "b a", isLetter);
    assert [' '] + "b a" == " b a";
    FieldsOfWord("a", " b a", isLetter);
    assert "a" + " b a" == "a b a";
  }

  lemma {:induction false} FieldsBC(isLetter: char -> bool)
    requires PlainLetters(isLetter)
    ensures Fields("b c", isLetter) == ["b", "c"]
  {
    FieldsOfWord("c", "", isLetter);
    assert "c" + "" == "c";
    FieldsSkip(' ', "c", isLetter);
    assert [' '] + "c" == " c";
    FieldsOfWord("b", " c", isLetter);
    assert "b" + " c" == "b c";
  }

  /** `Map` on "a b a" emits a, b, a, each with "1"; `Reduce("a", ["1", "1"])` is "2". */
  lemma {:induction false} MapReduceExample(isLetter: char -> bool)
    requires PlainLetters(isLetter)
    ensures MapOutput("a b a", isLetter) == [KeyValue("a", "1"), KeyValue("b", "1"), KeyValue("a", "1")]
    ensures Reduce("a", ["1", "1"]) == "2"
  {
    ExampleFields(isLetter);
  }

  /** The counts across the inputs "a b a" and "b c": a 2, b 2, c 1. */
  lemma {:induction false} TwoFileExample(isLetter: char -> bool)
    requires PlainLetters(isLetter)
    ensures var gs := GroupsOf(SortByKey(Ones(Fields("a b a", isLetter) + Fields("b c", isLetter))));
      GroupKeys(gs) == {"a", "b", "c"}
    ensures var gs := GroupsOf(SortByKey(Ones(Fields("a b a", isLetter) + Fields("b c", isLetter))));
      forall a :: 0 <= a < |gs| ==> Reduce(gs[a].key, gs[a].values) == (if gs[a].key == "c" then "1" else "2")
  {
    var words := Fields("a b a", isLetter) + Fields("b c", isLetter);
    ExampleWords(isLetter);
    ExampleGroupKeys(words);
    ExampleCounts(words);
  }

  /** Between them the two inputs hold a twice, b twice and c once. */
  lemma {:induction false} ExampleWords(isLetter: char -> bool)
    requires PlainLetters(isLetter)
    ensures multiset(Fields("a b a", isLetter) + Fields("b c", isLetter)) == multiset{"a", "a", "b", "b", "c"}
  {
    ExampleFields(isLetter);
  }

  /** Words occurring as in the example give the groups a, b and c, whatever their order. */
  lemma {:induction false} ExampleGroupKeys(words: seq<string>)
    requires multiset(words) == multiset{"a", "a", "b", "b", "c"}
    ensures GroupKeys(GroupsOf(SortByKey(Ones(words)))) == {"a", "b", "c"}
  {
    WordGroups(words);
    ExampleKeys(words);
  }

  /** ... and the counts a 2, b 2, c 1. */
  lemma {:induction false} ExampleCounts(words: seq<string>)
    requires multiset(words) == multiset{"a", "a", "b", "b", "c"}
    ensures var gs := GroupsOf(SortByKey(Ones(words)));
      forall a :: 0 <= a < |gs| ==> Reduce(gs[a].key, gs[a].values) == (if gs[a].key == "c" then "1" else "2")
  {
    WordCounts(words);
    ExampleGroupKeys(words);
    ExampleGroupCounts(multiset(words), GroupsOf(SortByKey(Ones(words))));
  }

  lemma {:induction false} ExampleGroupCounts(m: multiset<string>, gs: seq<Group>)
    requires m == multiset{"a", "a", "b", "b", "c"} && GroupKeys(gs) == {"a", "b", "c"}
    requires forall a :: 0 <= a < |gs| ==> |gs[a].values| == m[gs[a].key]
    ensures forall a :: 0 <= a < |gs| ==> Reduce(gs[a].key, gs[a].values) == (if gs[a].key == "c" then "1" else "2")
  {
    forall a | 0 <= a < |gs|
      ensures Reduce(gs[a].key, gs[a].values) == (if gs[a].key == "c" then "1" else "2")
    {
      GroupKeysMembers(gs, a);
      ExampleCount(m, gs[a].key, gs[a].values);
    }
  }

  lemma {:induction false} ExampleCount(m: multiset<string>, key: string, values: seq<string>)
    requires m == multiset{"a", "a", "b", "b", "c"} && key in {"a", "b", "c"} && |values| == m[key]
    ensures Reduce(key, values) == (if key == "c" then "1" else "2")
  {
    assert m["a"] == 2 && m["b"] == 2 && m["c"] == 1;
    assert NatToString(1) == "1" && NatToString(2) == "2";
  }

  lemma {:induction false} ExampleKeys(words: seq<string>)
    requires multiset(words) == multiset{"a", "a", "b", "b", "c"}
    ensures (set k | 0 <= k < |words| :: words[k]) == {"a", "b", "c"}
  {
    var keys := set k | 0 <= k < |words| :: words[k];
    forall x | x in keys ensures x in {"a", "b", "c"} {
      var k :| 0 <= k < |words| && words[k] == x;
      assert x in multiset(words);
    }
    forall x | x in {"a", "b", "c"} ensures x in keys {
      assert x in multiset(words);
      var k :| 0 <= k < |words| && words[k] == x;
    }
  }
}

=== FILE: worker.dfy ===
/**
 * The worker's data path. A map task runs the job's map function over one input
 * file, sends every record to the partition its key hashes to, and writes one
 * intermediate file `mr-<map>-<partition>` per non-empty partition, one JSON
 * record per line. A reduce task picks up the intermediate files of its
 * partition, decodes them, sorts the records by key and writes one line
 * "<key> <result>" per distinct key to `mr-out-<partition>`.
 *
 * The file system is a map from path to contents. The JSON codec is a pair of
 * functions passed in, assumed to round-trip and to produce no newline.
 */
module Worker {
  import opened Decimal
  import opened Hash
  import opened Text
  import opened KeyValues

  datatype Option<T> = None | Some(value: T)

  type FileSystem = map<string, string>

  // ---------------------------------------------------------------------------
  // Map side: records to partitions.

  /**
   * The partition rule of a job with `nReduce` reduce tasks, as a function of
   * the key. The bucketing below is stated for any rule `part`.
   */
  function PartitionRule(nReduce: int): string -> int
    requires nReduce != 0
  {
    key => Partition(key, nReduce)
  }

  /** The partitions some record hashes to. */
  function Hit(kva: seq<KeyValue>, part: string -> int): set<int> {
    set i | 0 <= i < |kva| :: part(kva[i].key)
  }

  /** The records that hash to partition `p`, in the order they were emitted. */
  function RecordsFor(kva: seq<KeyValue>, part: string -> int, p: int): (r: seq<KeyValue>)
    ensures |r| <= |kva|
    ensures forall i :: 0 <= i < |r| ==> part(r[i].key) == p
  {
    if kva == [] then []
    else
      var last := kva[|kva| - 1];
      RecordsFor(kva[..|kva| - 1], part, p) + (if part(last.key) == p then [last] else [])
  }

  /** The temporary file of each partition, as the sequence of records written to it. */
  function Buckets(kva: seq<KeyValue>, part: string -> int): map<int, seq<KeyValue>> {
    map p | p in Hit(kva, part) :: RecordsFor(kva, part, p)
  }

  /**
   * The loop of `executeMTask` that opens a temporary file the first time a
   * partition is hit and appends each record to its partition's file; `part`
   * is the partition rule, `ihash(kv.Key) % nReduce` in the source.
   */
  method PartitionRecords(kva: seq<KeyValue>, part: string -> int) returns (buckets: map<int, seq<KeyValue>>)
    ensures buckets == Buckets(kva, part)
  {
    buckets := map[];
    for i := 0 to |kva|
      invariant buckets == Buckets(kva[..i], part)
    {
      var kv := kva[i];
      var p := part(kv.key);
      if p !in buckets {
        buckets := buckets[p := []];
      }
      buckets := buckets[p := buckets[p] + [kv]];
      BucketsExtend(kva[..i], kv, part);
      assert kva[..i + 1] == kva[..i] + [kv];
    }
    assert kva[..|kva|] == kva;
  }

  /** No records, no buckets: a map task with empty output writes no intermediate file. */
  lemma {:induction false} EmptyOutputNoBuckets(part: string -> int)
    ensures Buckets([], part) == map[]
  {
    assert Hit([], part) == {};
  }

  lemma {:induction false} HitExtend(kva: seq<KeyValue>, kv: KeyValue, part: string -> int)
    ensures Hit(kva + [kv], part) == Hit(kva, part) + {part(kv.key)}
  {
    var s := kva + [kv];
    forall q | q in Hit(s, part) ensures q in Hit(kva, part) + {part(kv.key)} {
      var i :| 0 <= i < |s| && part(s[i].key) == q;
      if i < |kva| {
        assert s[i] == kva[i];
      }
    }
    forall q | q in Hit(kva, part) ensures q in Hit(s, part) {
      var i :| 0 <= i < |kva| && part(kva[i].key) == q;
      assert s[i] == kva[i];
    }
    assert s[|kva|] == kv;
  }

  lemma {:induction false} BucketsExtend(kva: seq<KeyValue>, kv: KeyValue, part: string -> int)
    ensures var p := part(kv.key);
      var b := Buckets(kva, part);
      Buckets(kva + [kv], part) == b[p := (if p in b then b[p] else []) + [kv]]
  {
    var s := kva + [kv];
    var p := part(kv.key);
    var b := Buckets(kva, part);
    var expected := b[p := (if p in b then b[p] else []) + [kv]];
    assert s[..|s| - 1] == kva;
    HitExtend(kva, kv, part);
    assert Buckets(s, part).Keys == expected.Keys;
    forall q | q in expected ensures Buckets(s, part)[q] == expected[q] {
      assert RecordsFor(s, part, q) == RecordsFor(kva, part, q) + (if p == q then [kv] else []);
      if q == p && p !in b {
        RecordsForEmpty(kva, part, p);
      }
    }
  }

  /** A bucket holds no records exactly when no record hashed to its partition. */
  lemma {:induction false} RecordsForEmpty(kva: seq<KeyValue>, part: string -> int, p: int)
    ensures RecordsFor(kva, part, p) == [] <==> p !in Hit(kva, part)
  {
    if kva != [] {
      var init := kva[..|kva| - 1];
      RecordsForEmpty(init, part, p);
      assert kva == init + [kva[|kva| - 1]];
      HitExtend(init, kva[|kva| - 1], part);
    }
  }

  /**
   * Every record lands in the bucket of its own partition, as often as it was
   * emitted, and in no other bucket: together the buckets are a permutation of
   * the map output.
   */
  lemma {:induction false} RecordsForCount(kva: seq<KeyValue>, part: string -> int, p: int, x: KeyValue)
    ensures multiset(RecordsFor(kva, part, p))[x] == if part(x.key) == p then multiset(kva)[x] else 0
  {
    if kva != [] {
      var init := kva[..|kva| - 1];
      RecordsForCount(init, part, p, x);
      assert kva == init + [kva[|kva| - 1]];
    }
  }

  /** Bucketing keeps the emission order: the records of a longer output follow those of its prefix. */
  lemma {:induction false} RecordsForAppend(a: seq<KeyValue>, b: seq<KeyValue>, part: string -> int, p: int)
    ensures RecordsFor(a + b, part, p) == RecordsFor(a, part, p) + RecordsFor(b, part, p)
  {
    if b != [] {
      var init := b[..|b| - 1];
      RecordsForAppend(a, init, part, p);
      assert (a + b)[..|a + b| - 1] == a + init;
    } else {
      assert a + b == a;
    }
  }

  // ---------------------------------------------------------------------------
  // File names.

  /** `fmt.Sprintf("mr-%d-%d", mNumber, rNum)`, the name an intermediate file is renamed to. */
  function IntermediateName(mNumber: int, rNumber: int): string {
    "mr-" + IntToString(mNumber) + "-" + IntToString(rNumber)
  }

  /** `fmt.Sprintf("mr-out-%d", rNumber)`, the reduce output file. */
  function OutputName(rNumber: int): string {
    "mr-out-" + IntToString(rNumber)
  }

  /** One map task's intermediate files have distinct names. */
  lemma {:induction false} IntermediateNameInjective(m: int, p: int, q: int)
    requires IntermediateName(m, p) == IntermediateName(m, q)
    ensures p == q
  {
    var prefix := "mr-" + IntToString(m) + "-";
    assert IntermediateName(m, p) == prefix + IntToString(p);
    assert IntermediateName(m, q) == prefix + IntToString(q);
    assert IntToString(p) == IntermediateName(m, p)[|prefix|..];
    assert IntToString(q) == IntermediateName(m, q)[|prefix|..];
    IntToStringInjective(p, q);
  }

  /** No intermediate file is ever named like an output file. */
  lemma {:induction false} IntermediateIsNotOutput(m: int, p: int, r: int)
    ensures IntermediateName(m, p) != OutputName(r)
  {
    assert IntermediateName(m, p)[3] == IntToString(m)[0];
    assert OutputName(r)[3] == 'o';
  }

  // ---------------------------------------------------------------------------
  // Line format of intermediate files.

  /** `json.Marshal` and `json.Unmarshal` of a record, as a pair of functions. */
  ghost predicate LineCodec(enc: KeyValue -> string, dec: string -> Option<KeyValue>) {
    forall kv :: dec(enc(kv)) == Some(kv) && '\n' !in enc(kv)
  }

  function EncodeAll(enc: KeyValue -> string, recs: seq<KeyValue>): (lines: seq<string>)
    ensures |lines| == |recs|
    ensures forall i :: 0 <= i < |recs| ==> lines[i] == enc(recs[i])
  {
    if recs == [] then [] else EncodeAll(enc, recs[..|recs| - 1]) + [enc(recs[|recs| - 1])]
  }

  /** The records of some lines; no result if any line fails to decode. */
  function DecodeAll(dec: string -> Option<KeyValue>, lines: seq<string>): Option<seq<KeyValue>> {
    if lines == [] then Some([])
    else match DecodeAll(dec, lines[..|lines| - 1])
      case None => None
      case Some(init) =>
        match dec(lines[|lines| - 1])
        case None => None
        case Some(kv) => Some(init + [kv])
  }

  /** What `fmt.Fprintf(f, "%s\n", kvj)` leaves in a file after writing these records. */
  function RecordFile(enc: KeyValue -> string, recs: seq<KeyValue>): string {
    TerminateLines(EncodeAll(enc, recs))
  }

  lemma {:induction false} DecodeEncodeAll(enc: KeyValue -> string, dec: string -> Option<KeyValue>, recs: seq<KeyValue>)
    requires LineCodec(enc, dec)
    ensures DecodeAll(dec, EncodeAll(enc, recs)) == Some(recs)
  {
    if recs != [] {
      var init := recs[..|recs| - 1];
      DecodeEncodeAll(enc, dec, init);
      assert EncodeAll(enc, recs)[..|recs| - 1] == EncodeAll(enc, init);
      assert init + [recs[|recs| - 1]] == recs;
    }
  }

  /** A record file decodes back to the records written to it. */
  lemma {:induction false} RecordFileRoundTrip(enc: KeyValue -> string, dec: string -> Option<KeyValue>, recs: seq<KeyValue>)
    requires LineCodec(enc, dec)
    ensures DecodeAll(dec, Lines(RecordFile(enc, recs))) == Some(recs)
  {
    var lines := EncodeAll(enc, recs);
    assert NoNewlines(lines);
    LinesRoundTrip(lines);
    DecodeEncodeAll(enc, dec, recs);
  }

  // ---------------------------------------------------------------------------
  // A whole map task.

  /** The files `executeMTask` leaves behind: one per hit partition, renamed into place. */
  function IntermediateFiles(mNumber: int, buckets: map<int, seq<KeyValue>>, enc: KeyValue -> string): (files: FileSystem)
    ensures forall p :: p in buckets ==>
      IntermediateName(mNumber, p) in files && files[IntermediateName(mNumber, p)] == RecordFile(enc, buckets[p])
    ensures forall name :: name in files ==> exists p :: p in buckets && name == IntermediateName(mNumber, p)
  {
    assert forall p, q :: IntermediateName(mNumber, p) == IntermediateName(mNumber, q) ==> p == q by {
      forall p, q | IntermediateName(mNumber, p) == IntermediateName(mNumber, q) ensures p == q {
        IntermediateNameInjective(mNumber, p, q);
      }
    }
    map p | p in buckets :: IntermediateName(mNumber, p) := RecordFile(enc, buckets[p])
  }

  /**
   * The outcome of map task `mNumber` on `filename`: no outcome when the file
   * cannot be opened (`log.Fatalf`) or when records must be divided among zero
   * partitions (Go's integer division by zero); otherwise the file system with
   * the intermediate files added. With no records the loop never runs and
   * nothing is written, whatever `nReduce` is.
   */
  function MapTaskResult(fs: FileSystem, filename: string, mNumber: int, nReduce: int,
                         mapf: (string, string) -> seq<KeyValue>, enc: KeyValue -> string): Option<FileSystem>
  {
    if filename !in fs then None
    else
      var kva := mapf(filename, fs[filename]);
      if kva == [] then Some(fs)
      else if nReduce == 0 then None
      else Some(fs + IntermediateFiles(mNumber, Buckets(kva, PartitionRule(nReduce)), enc))
  }

  /** `executeMTask`: read the input, run the map function, bucket, rename into place. */
  method ExecuteMapTask(fs: FileSystem, filename: string, mNumber: int, nReduce: int,
                        mapf: (string, string) -> seq<KeyValue>, enc: KeyValue -> string)
    returns (result: Option<FileSystem>)
    ensures result == MapTaskResult(fs, filename, mNumber, nReduce, mapf, enc)
  {
    if filename !in fs {
      return None;
    }
    var kva := mapf(filename, fs[filename]);
    if kva == [] {
      return Some(fs);
    }
    if nReduce == 0 {
      return None;
    }
    var buckets := PartitionRecords(kva, PartitionRule(nReduce));
    return Some(fs + IntermediateFiles(mNumber, buckets, enc));
  }

  /** Adding a map task's files changes only files named `mr-<m>-<p>` for a partition `p` some record hashed to. */
  lemma {:induction false} BucketFilesOnlyIntermediate(fs: FileSystem, mNumber: int, kva: seq<KeyValue>, part: string -> int,
                                    enc: KeyValue -> string)
    ensures var out := fs + IntermediateFiles(mNumber, Buckets(kva, part), enc);
      fs.Keys <= out.Keys &&
      forall name :: name in out && (name !in fs || out[name] != fs[name]) ==>
        exists q :: q in Hit(kva, part) && name == IntermediateName(mNumber, q)
  {
    var files := IntermediateFiles(mNumber, Buckets(kva, part), enc);
    forall name | name in fs + files && (name !in fs || (fs + files)[name] != fs[name])
      ensures exists q :: q in Hit(kva, part) && name == IntermediateName(mNumber, q)
    {
      assert name in files;
    }
  }

  /** `mr-<m>-<p>` exists after the task exactly when it existed before or some record hashed to `p`. */
  lemma {:induction false} BucketFileExists(fs: FileSystem, mNumber: int, kva: seq<KeyValue>, part: string -> int,
                         enc: KeyValue -> string, p: int)
    ensures IntermediateName(mNumber, p) in fs + IntermediateFiles(mNumber, Buckets(kva, part), enc) <==>
      IntermediateName(mNumber, p) in fs || p in Hit(kva, part)
  {
    var files := IntermediateFiles(mNumber, Buckets(kva, part), enc);
    if IntermediateName(mNumber, p) in files {
      var q :| q in Buckets(kva, part) && IntermediateName(mNumber, p) == IntermediateName(mNumber, q);
      IntermediateNameInjective(mNumber, p, q);
    }
  }

  /** The file of a hit partition decodes to the records of that partition, in emission order. */
  lemma {:induction false} BucketFileContents(fs: FileSystem, mNumber: int, kva: seq<KeyValue>, part: string -> int,
                           enc: KeyValue -> string, dec: string -> Option<KeyValue>, p: int)
    requires LineCodec(enc, dec)
    requires p in Hit(kva, part)
    ensures var out := fs + IntermediateFiles(mNumber, Buckets(kva, part), enc);
      IntermediateName(mNumber, p) in out &&
      DecodeAll(dec, Lines(out[IntermediateName(mNumber, p)])) == Some(RecordsFor(kva, part, p))
  {
    RecordFileRoundTrip(enc, dec, RecordsFor(kva, part, p));
  }

  /** A map task whose input exists and whose partition count is not zero adds its buckets' files. */
  lemma {:induction false} MapTaskWrites(fs: FileSystem, filename: string, mNumber: int, nReduce: int,
                      mapf: (string, string) -> seq<KeyValue>, enc: KeyValue -> string)
    requires filename in fs && nReduce != 0
    ensures MapTaskResult(fs, filename, mNumber, nReduce, mapf, enc) ==
      Some(fs + IntermediateFiles(mNumber, Buckets(mapf(filename, fs[filename]), PartitionRule(nReduce)), enc))
  {
    var kva := mapf(filename, fs[filename]);
    if kva == [] {
      EmptyOutputNoBuckets(PartitionRule(nReduce));
      assert IntermediateFiles(mNumber, map[], enc) == map[];
      assert fs + map[] == fs;
    }
  }

  // ---------------------------------------------------------------------------
  // Reduce side: which files a reduce task reads.

  /** The pattern `mr-\d-<rNumber>` occurs in `path` at index `i` (`\d` is one ASCII digit). */
  predicate MatchesAt(path: string, i: nat, rNumber: int) {
    var tail := IntToString(rNumber);
    i + 5 + |tail| <= |path| &&
    path[i] == 'm' && path[i + 1] == 'r' && path[i + 2] == '-' &&
    IsDigit(path[i + 3]) && path[i + 4] == '-' &&
    path[i + 5..i + 5 + |tail|] == tail
  }

  /**
   * The selection `WalkDir` makes, as written: `regexp.Match` of the unanchored
   * pattern `mr-\d-<rNumber>`, which succeeds when the pattern occurs anywhere.
   */
  predicate MatchesAsWritten(path: string, rNumber: int) {
    exists i: nat :: i <= |path| && MatchesAt(path, i, rNumber)
  }

  /** An intermediate file of map task 0..9 is found by the reduce task of its partition. */
  lemma {:induction false} SmallMapNumberMatches(m: nat, r: int)
    requires m < 10
    ensures MatchesAsWritten(IntermediateName(m, r), r)
  {
    var path := IntermediateName(m, r);
    assert path == "mr-" + [DigitChar(m)] + "-" + IntToString(r);
    assert path[5..5 + |IntToString(r)|] == IntToString(r);
    assert MatchesAt(path, 0, r);
  }

  /** Map task 10 onwards: its intermediate files are read by no reduce task. */
  lemma {:induction false} LargeMapNumberSkipped(m: nat, p: nat, r: int)
    requires m >= 10
    ensures !MatchesAsWritten(IntermediateName(m, p), r)
  {
    var path := IntermediateName(m, p);
    var ms := NatToString(m);
    var ps := NatToString(p);
    assert path == "mr-" + ms + "-" + ps;
    forall j | 1 <= j < |path| ensures path[j] != 'm' {
      if 3 <= j < 3 + |ms| {
        assert path[j] == ms[j - 3];
      } else if j > 3 + |ms| {
        assert path[j] == ps[j - 4 - |ms|];
      }
    }
    assert path[4] == ms[1];
    forall i: nat | i <= |path| ensures !MatchesAt(path, i, r) {
    }
  }

  /** Reduce task r (r >= 1) also reads the files of partitions 10r..10r+9. */
  lemma {:induction false} LongerPartitionMatches(m: nat, r: nat, d: nat)
    requires m < 10 && 1 <= r && d < 10
    ensures MatchesAsWritten(IntermediateName(m, 10 * r + d), r)
  {
    var path := IntermediateName(m, 10 * r + d);
    assert (10 * r + d) / 10 == r && (10 * r + d) % 10 == d;
    assert NatToString(10 * r + d) == NatToString(r) + [DigitChar(d)];
    assert path == "mr-" + [DigitChar(m)] + "-" + NatToString(r) + [DigitChar(d)];
    assert path[5..5 + |NatToString(r)|] == NatToString(r);
    assert MatchesAt(path, 0, r);
  }

  /** The concrete instances: `mr-10-0` is missed by reduce task 0, `mr-0-10` is read by reduce task 1. */
  lemma {:induction false} MatcherCounterexamples()
    ensures IntermediateName(10, 0) == "mr-10-0" && !MatchesAsWritten("mr-10-0", 0)
    ensures IntermediateName(0, 10) == "mr-0-10" && MatchesAsWritten("mr-0-10", 1)
  {
    assert NatToString(10) == "10";
    LargeMapNumberSkipped(10, 0, 0);
    LongerPartitionMatches(0, 1, 0);
  }

  /** Output files are never taken for intermediate files. */
  lemma {:induction false} OutputNeverMatchesAsWritten(x: nat, r: int)
    ensures !MatchesAsWritten(OutputName(x), r)
  {
    var path := OutputName(x);
    var xs := NatToString(x);
    assert path == "mr-out-" + xs;
    forall j | 1 <= j < |path| ensures path[j] != 'm' {
      if j >= 7 {
        assert path[j] == xs[j - 7];
      }
    }
    forall i: nat | i <= |path| ensures !MatchesAt(path, i, r) {
    }
  }

  /**
   * The selection as intended: the whole path is `mr-<digits>-<rNumber>`, the
   * anchored pattern `^mr-\d+-<rNumber>$`.
   */
  predicate IsIntermediateFor(path: string, rNumber: int) {
    exists k :: 4 <= k < |path| && path[..3] == "mr-" && AllDigits(path[3..k]) && path[k] == '-' &&
      path[k + 1..] == IntToString(rNumber)
  }

  /** `mr-<digits>-<rest>` has its only separator after the digits, at index `3 + |<digits>|`. */
  lemma {:induction false} DigitsThenSeparator(ms: string, rest: string)
    requires AllDigits(ms)
    ensures var path := "mr-" + ms + ("-" + rest);
      var k0 := 3 + |ms|;
      k0 < |path| && path[..3] == "mr-" && AllDigits(path[3..k0]) && path[k0] == '-' &&
      path[k0 + 1..] == rest &&
      (forall k :: 3 <= k < k0 ==> path[k] != '-') &&
      (forall k :: k0 < k <= |path| ==> !AllDigits(path[3..k]))
  {
    var k0 := 3 + |ms|;
    var path := "mr-" + ms + ("-" + rest);
    assert path[3..k0] == ms;
    assert path[k0 + 1..] == rest;
    forall k | 3 <= k < k0 ensures path[k] != '-' {
      assert path[k] == ms[k - 3];
    }
    forall k | k0 < k <= |path| ensures !AllDigits(path[3..k]) {
      assert path[3..k][k0 - 3] == '-';
    }
  }

  /** `mr-<m>-<p>` has its only separator after the map number at index `3 + |<m>|`. */
  lemma {:induction false} IntermediateNameShape(m: nat, p: int)
    ensures var path := IntermediateName(m, p);
      var k0 := 3 + |NatToString(m)|;
      k0 < |path| && path[..3] == "mr-" && AllDigits(path[3..k0]) && path[k0] == '-' &&
      path[k0 + 1..] == IntToString(p) &&
      (forall k :: 3 <= k < k0 ==> path[k] != '-') &&
      (forall k :: k0 < k <= |path| ==> !AllDigits(path[3..k]))
  {
    DigitsThenSeparator(NatToString(m), IntToString(p));
    assert IntermediateName(m, p) == "mr-" + NatToString(m) + ("-" + IntToString(p));
  }

  /** The intended selection reads `mr-<m>-<p>` exactly when `p` is its partition, for every map number. */
  lemma {:induction false} IntermediateForIff(m: nat, p: int, r: int)
    ensures IsIntermediateFor(IntermediateName(m, p), r) <==> p == r
  {
    var path := IntermediateName(m, p);
    var k0 := 3 + |NatToString(m)|;
    IntermediateNameShape(m, p);
    if IsIntermediateFor(path, r) {
      var k :| 4 <= k < |path| && path[..3] == "mr-" && AllDigits(path[3..k]) && path[k] == '-' &&
        path[k + 1..] == IntToString(r);
      assert k == k0;
      IntToStringInjective(p, r);
    }
  }

  /** Output files are not intermediate files of any partition. */
  lemma {:induction false} OutputIsNotIntermediate(x: int, r: int)
    ensures !IsIntermediateFor(OutputName(x), r)
  {
    var path := OutputName(x);
    forall k | 4 <= k < |path| ensures !AllDigits(path[3..k]) {
      assert path[3..k][0] == 'o';
    }
  }

  /**
   * The walked files selected for partition `rNumber`, in walk order. The test
   * `sel` is the selection made on each path: `MatchesAsWritten` is the one the
   * source makes, `IsIntermediateFor` the one it evidently intends.
   */
  function Matching(paths: seq<string>, rNumber: int, sel: (string, int) -> bool): (files: seq<string>)
    ensures |files| <= |paths|
  {
    if paths == [] then []
    else
      var last := paths[|paths| - 1];
      Matching(paths[..|paths| - 1], rNumber, sel) + (if sel(last, rNumber) then [last] else [])
  }

  /** A path is selected exactly when it was walked and passes the test. */
  lemma {:induction false} MatchingMembers(paths: seq<string>, rNumber: int, sel: (string, int) -> bool, x: string)
    ensures x in Matching(paths, rNumber, sel) <==> x in paths && sel(x, rNumber)
  {
    if paths != [] {
      var init := paths[..|paths| - 1];
      MatchingMembers(init, rNumber, sel, x);
      assert paths == init + [paths[|paths| - 1]];
    }
  }

  /**
   * `WalkDir`: the callback appends every walked path that passes the test.
   * `paths` are the non-directory entries in the order `filepath.WalkDir`
   * visits them.
   */
  method WalkDir(paths: seq<string>, rNumber: int, sel: (string, int) -> bool) returns (files: seq<string>)
    ensures files == Matching(paths, rNumber, sel)
  {
    files := [];
    for i := 0 to |paths|
      invariant files == Matching(paths[..i], rNumber, sel)
    {
      assert paths[..i + 1][..i] == paths[..i];
      if sel(paths[i], rNumber) {
        files := files + [paths[i]];
      }
    }
    assert paths[..|paths|] == paths;
  }

  /** As written, a reduce task never reads an intermediate file of map task 10 or later. */
  lemma {:induction false} AsWrittenDropsLateMaps(paths: seq<string>, r: int, m: nat, p: nat)
    requires m >= 10
    ensures IntermediateName(m, p) !in Matching(paths, r, MatchesAsWritten)
  {
    MatchingMembers(paths, r, MatchesAsWritten, IntermediateName(m, p));
    LargeMapNumberSkipped(m, p, r);
  }

  /** As written, reduce task r >= 1 also reads the walked files of partitions 10r..10r+9. */
  lemma {:induction false} AsWrittenReadsOtherPartitions(paths: seq<string>, m: nat, r: nat, d: nat)
    requires m < 10 && 1 <= r && d < 10
    requires IntermediateName(m, 10 * r + d) in paths
    ensures IntermediateName(m, 10 * r + d) in Matching(paths, r, MatchesAsWritten)
  {
    MatchingMembers(paths, r, MatchesAsWritten, IntermediateName(m, 10 * r + d));
    LongerPartitionMatches(m, r, d);
  }

  /** The intended selection reads a walked `mr-<m>-<p>` exactly when `p` is the task's partition. */
  lemma {:induction false} IntendedSelection(paths: seq<string>, r: int, m: nat, p: int)
    ensures IntermediateName(m, p) in Matching(paths, r, IsIntermediateFor) <==>
      IntermediateName(m, p) in paths && p == r
  {
    MatchingMembers(paths, r, IsIntermediateFor, IntermediateName(m, p));
    IntermediateForIff(m, p, r);
  }

  // ---------------------------------------------------------------------------
  // Reduce side: reading, sorting, grouping, writing.

  /** The records of one file; none when it cannot be opened or a line does not decode. */
  function ReadFile(fs: FileSystem, name: string, dec: string -> Option<KeyValue>): Option<seq<KeyValue>> {
    if name !in fs then None else DecodeAll(dec, Lines(fs[name]))
  }

  /** The records of several files, file after file; none if any file fails. */
  function ReadAll(files: seq<string>, fs: FileSystem, dec: string -> Option<KeyValue>): Option<seq<KeyValue>> {
    if files == [] then Some([])
    else match ReadAll(files[..|files| - 1], fs, dec)
      case None => None
      case Some(init) =>
        match ReadFile(fs, files[|files| - 1], dec)
        case None => None
        case Some(recs) => Some(init + recs)
  }

  lemma {:induction false} DecodeAllFails(dec: string -> Option<KeyValue>, lines: seq<string>, n: nat)
    requires n <= |lines| && DecodeAll(dec, lines[..n]) == None
    ensures DecodeAll(dec, lines) == None
    decreases |lines| - n
  {
    if n < |lines| {
      assert lines[..n + 1][..n] == lines[..n];
      DecodeAllFails(dec, lines, n + 1);
    } else {
      assert lines[..n] == lines;
    }
  }

  lemma {:induction false} ReadAllFails(files: seq<string>, fs: FileSystem, dec: string -> Option<KeyValue>, n: nat)
    requires n <= |files| && ReadAll(files[..n], fs, dec) == None
    ensures ReadAll(files, fs, dec) == None
    decreases |files| - n
  {
    if n < |files| {
      assert files[..n + 1][..n] == files[..n];
      ReadAllFails(files, fs, dec, n + 1);
    } else {
      assert files[..n] == files;
    }
  }

  /**
   * The reading loops of `executeRTask`: each selected file is opened and split
   * into lines, and each line but the last piece is decoded and appended.
   */
  method ReadInput(files: seq<string>, fs: FileSystem, dec: string -> Option<KeyValue>)
    returns (data: Option<seq<KeyValue>>)
    ensures data == ReadAll(files, fs, dec)
  {
    var acc: seq<KeyValue> := [];
    for i := 0 to |files|
      invariant ReadAll(files[..i], fs, dec) == Some(acc)
    {
      var name := files[i];
      assert files[..i + 1][..i] == files[..i];
      if name !in fs {
        ReadAllFails(files, fs, dec, i + 1);
        return None;
      }
      var lines := Lines(fs[name]);
      var recs: seq<KeyValue> := [];
      for j := 0 to |lines|
        invariant DecodeAll(dec, lines[..j]) == Some(recs)
      {
        assert lines[..j + 1][..j] == lines[..j];
        var kv := dec(lines[j]);
        if kv.None? {
          DecodeAllFails(dec, lines, j + 1);
          ReadAllFails(files, fs, dec, i + 1);
          return None;
        }
        recs := recs + [kv.value];
      }
      assert lines[..|lines|] == lines;
      acc := acc + recs;
    }
    assert files[..|files|] == files;
    return Some(acc);
  }

  /** Reading the files a map task wrote gives back the records it wrote, file after file. */
  lemma {:induction false} ReadAllRecordFiles(files: seq<string>, fs: FileSystem, enc: KeyValue -> string,
                                             dec: string -> Option<KeyValue>, recs: seq<seq<KeyValue>>)
    requires LineCodec(enc, dec)
    requires |files| == |recs|
    requires forall i :: 0 <= i < |files| ==> files[i] in fs && fs[files[i]] == RecordFile(enc, recs[i])
    ensures ReadAll(files, fs, dec) == Some(Flatten(recs))
  {
    if files != [] {
      var n := |files| - 1;
      assert forall i :: 0 <= i < n ==> files[..n][i] == files[i] && recs[..n][i] == recs[i];
      ReadAllRecordFiles(files[..n], fs, enc, dec, recs[..n]);
      RecordFileRoundTrip(enc, dec, recs[n]);
      FlattenLast(recs);
    }
  }

  function Flatten(rs: seq<seq<KeyValue>>): seq<KeyValue> {
    if rs == [] then [] else rs[0] + Flatten(rs[1..])
  }

  lemma {:induction false} FlattenLast(rs: seq<seq<KeyValue>>)
    requires rs != []
    ensures Flatten(rs) == Flatten(rs[..|rs| - 1]) + rs[|rs| - 1]
  {
    assert rs == rs[..|rs| - 1] + [rs[|rs| - 1]];
    FlattenSnoc(rs[..|rs| - 1], rs[|rs| - 1]);
  }

  lemma {:induction false} FlattenSnoc(rs: seq<seq<KeyValue>>, r: seq<KeyValue>)
    ensures Flatten(rs + [r]) == Flatten(rs) + r
  {
    if rs != [] {
      assert (rs + [r])[1..] == rs[1..] + [r];
      FlattenSnoc(rs[1..], r);
    }
  }

  /** The text `executeRTask` writes for some groups: "<key> <result>\n" per group. */
  function RenderGroups(gs: seq<Group>, reducef: (string, seq<string>) -> string): string {
    if gs == [] then ""
    else gs[0].key + " " + reducef(gs[0].key, gs[0].values) + "\n" + RenderGroups(gs[1..], reducef)
  }

  /** The scan `for j < len(data) && data[j].Key == data[i].Key { j++ }`: the end of the run at `i`. */
  method RunEnd(data: seq<KeyValue>, i: nat) returns (j: nat)
    requires i < |data|
    ensures j == i + RunLength(data[i..], data[i].key)
  {
    j := i + 1;
    while j < |data| && data[j].key == data[i].key
      invariant i < j <= |data|
      invariant forall k :: i <= k < j ==> data[k].key == data[i].key
    {
      j := j + 1;
    }
    RunLengthIs(data[i..], data[i].key, j - i);
  }

  /** The values of `data[i..j]`, appended one by one. */
  method CollectValues(data: seq<KeyValue>, i: nat, j: nat) returns (values: seq<string>)
    requires i <= j <= |data|
    ensures values == Values(data[i..j])
  {
    values := [];
    for k := i to j
      invariant values == Values(data[i..k])
    {
      assert data[i..k + 1] == data[i..k] + [data[k]];
      values := values + [data[k].value];
    }
  }

  /**
   * The output loop of `executeRTask`: `j` runs to the end of the run of equal
   * keys starting at `i`, their values are collected, `reducef` is applied and
   * one line is written.
   */
  method EmitGroups(data: seq<KeyValue>, reducef: (string, seq<string>) -> string) returns (out: string)
    ensures out == RenderGroups(GroupsOf(data), reducef)
  {
    out := "";
    var i := 0;
    while i < |data|
      invariant 0 <= i <= |data|
      invariant out + RenderGroups(GroupsOf(data[i..]), reducef) == RenderGroups(GroupsOf(data), reducef)
    {
      var j := RunEnd(data, i);
      var values := CollectValues(data, i, j);
      var output := reducef(data[i].key, values);
      var line := data[i].key + " " + output + "\n";
      RenderRun(data, i, j, reducef);
      AppendAssociative(out, line, RenderGroups(GroupsOf(data[j..]), reducef));
      out := out + line;
      i := j;
    }
    assert data[i..] == [];
  }

  /** The text for the groups of non-empty records: the line of the first run, then the text for the rest. */
  lemma {:induction false} RenderFirstRun(s: seq<KeyValue>, n: nat, reducef: (string, seq<string>) -> string)
    requires s != [] && n == RunLength(s, s[0].key)
    ensures RenderGroups(GroupsOf(s), reducef) ==
      (s[0].key + " " + reducef(s[0].key, Values(s[..n])) + "\n") + RenderGroups(GroupsOf(s[n..]), reducef)
  {
    var gs := GroupsOf(s);
    assert gs == [Group(s[0].key, Values(s[..n]))] + GroupsOf(s[n..]);
    assert gs[1..] == GroupsOf(s[n..]);
  }

  /** The run at `i` of `data`, seen from `data[i..]`. */
  lemma {:induction false} RunSlices(data: seq<KeyValue>, i: nat, j: nat)
    requires i < |data| && j == i + RunLength(data[i..], data[i].key)
    ensures data[i..][0] == data[i] && RunLength(data[i..], data[i..][0].key) == j - i
    ensures data[i..][..j - i] == data[i..j] && data[i..][j - i..] == data[j..]
  {
  }

  /** The text for `data[i..]` is the line of the run `data[i..j]`, then the text for `data[j..]`. */
  lemma {:induction false} RenderRun(data: seq<KeyValue>, i: nat, j: nat, reducef: (string, seq<string>) -> string)
    requires i < |data| && j == i + RunLength(data[i..], data[i].key)
    ensures RenderGroups(GroupsOf(data[i..]), reducef) ==
      (data[i].key + " " + reducef(data[i].key, Values(data[i..j])) + "\n") + RenderGroups(GroupsOf(data[j..]), reducef)
  {
    RunSlices(data, i, j);
    RenderFirstRun(data[i..], j - i, reducef);
  }

  lemma {:induction false} AppendAssociative(a: string, b: string, c: string)
    ensures a + (b + c) == (a + b) + c
  {
  }

  /** The outcome of reduce task `rNumber` over the walked `paths`. */
  function ReduceTaskResult(fs: FileSystem, paths: seq<string>, rNumber: int,
                            dec: string -> Option<KeyValue>, reducef: (string, seq<string>) -> string,
                            sel: (string, int) -> bool): Option<FileSystem>
  {
    match ReadAll(Matching(paths, rNumber, sel), fs, dec)
    case None => None
    case Some(data) => Some(fs[OutputName(rNumber) := RenderGroups(GroupsOf(SortByKey(data)), reducef)])
  }

  /**
   * `executeRTask`: select, read and decode, sort, then group and write
   * `mr-out-<rNumber>`, which is created even when there is no data.
   */
  method ExecuteReduceTask(fs: FileSystem, paths: seq<string>, rNumber: int,
                           dec: string -> Option<KeyValue>, reducef: (string, seq<string>) -> string,
                           sel: (string, int) -> bool)
    returns (result: Option<FileSystem>)
    ensures result == ReduceTaskResult(fs, paths, rNumber, dec, reducef, sel)
  {
    var files := WalkDir(paths, rNumber, sel);
    var data := ReadInput(files, fs, dec);
    if data.None? {
      return None;
    }
    var sorted := SortByKey(data.value);
    var out := EmitGroups(sorted, reducef);
    return Some(fs[OutputName(rNumber) := out]);
  }

  /**
   * A reduce task that reads its input writes only its output file, and that
   * file exists even when no intermediate file was selected.
   */
  lemma {:induction false} ReduceTaskWrites(fs: FileSystem, paths: seq<string>, rNumber: int,
                         dec: string -> Option<KeyValue>, reducef: (string, seq<string>) -> string,
                         sel: (string, int) -> bool)
    requires ReadAll(Matching(paths, rNumber, sel), fs, dec).Some?
    ensures var out := ReduceTaskResult(fs, paths, rNumber, dec, reducef, sel);
      out.Some? && out.value.Keys == fs.Keys + {OutputName(rNumber)} &&
      (forall name :: name in fs && name != OutputName(rNumber) ==> out.value[name] == fs[name]) &&
      (Matching(paths, rNumber, sel) == [] ==> out.value[OutputName(rNumber)] == "")
  {
    var data := ReadAll(Matching(paths, rNumber, sel), fs, dec).value;
    if Matching(paths, rNumber, sel) == [] {
      assert data == [];
      assert GroupsOf(SortByKey(data)) == [];
    }
  }

  /** The text for a single record: its key, the result of `reducef` on its one value, a newline. */
  lemma {:induction false} RenderOneRecord(kv: KeyValue, reducef: (string, seq<string>) -> string)
    ensures RenderGroups(GroupsOf(SortByKey([kv])), reducef) == kv.key + " " + reducef(kv.key, [kv.value]) + "\n"
  {
    var data := [kv];
    assert SortByKey(data) == data;
    var n := RunLength(data, kv.key);
    assert n == 1;
    assert GroupsOf(data) == [Group(kv.key, Values(data[..n]))] + GroupsOf(data[n..]);
    assert data[..n] == data && data[n..] == [];
    assert Values(data) == [kv.value];
    var gs := [Group(kv.key, [kv.value])];
    assert GroupsOf(SortByKey(data)) == gs;
    assert RenderGroups(gs[1..], reducef) == "";
  }

  /** The walked `mr-10-0` is selected by the intended test and not by the source's pattern. */
  lemma {:induction false} SelectLateMap()
    ensures Matching(["mr-10-0"], 0, MatchesAsWritten) == []
    ensures Matching(["mr-10-0"], 0, IsIntermediateFor) == ["mr-10-0"]
  {
    var paths := ["mr-10-0"];
    MatcherCounterexamples();
    assert paths[..0] == [];
    IntendedSelection(paths, 0, 10, 0);
  }

  /**
   * The records of map task 10 are lost as written: given a walked
   * `mr-10-0` holding one record, reduce task 0 writes an empty output with
   * the selection the source makes, and the record's line with the intended one.
   */
  lemma {:induction false} LateMapRecordsLost(fs: FileSystem, enc: KeyValue -> string, dec: string -> Option<KeyValue>,
                                            reducef: (string, seq<string>) -> string, kv: KeyValue)
    requires LineCodec(enc, dec)
    requires "mr-10-0" in fs && fs["mr-10-0"] == RecordFile(enc, [kv])
    ensures ReduceTaskResult(fs, ["mr-10-0"], 0, dec, reducef, MatchesAsWritten) == Some(fs[OutputName(0) := ""])
    ensures ReduceTaskResult(fs, ["mr-10-0"], 0, dec, reducef, IsIntermediateFor) ==
      Some(fs[OutputName(0) := kv.key + " " + reducef(kv.key, [kv.value]) + "\n"])
  {
    var paths := ["mr-10-0"];
    SelectLateMap();
    assert GroupsOf(SortByKey([])) == [];
    RecordFileRoundTrip(enc, dec, [kv]);
    assert ReadAll(paths, fs, dec) == Some([kv]) by {
      assert paths[..0] == [];
    }
    RenderOneRecord(kv, reducef);
  }
}
